=== FILE: README.md ===
# Order address editing for Shopify: a Dafny model

This project models the domain rules of a Shopify app that lets a buyer edit the shipping address of a fresh order from the checkout's order-status and thank-you pages. The app holds every new fulfillment order for a short window so the address can still change. The model covers:

- the edit window of an order: it closes `hold_duration_minutes` after the order's remote creation time;
- `AddressUpdateResult`, and the class and instance `update_shipping_address` that call the remote `orderUpdate` mutation;
- the fulfillment-order hold lifecycle: `from_shopify!`, the hold-now path, the fetch-and-persist path, the `persist!` upsert, the scheduled release time, and `ReleaseFulfillmentOrderHoldJob` with its retry and discard rules;
- the compliance webhooks (`customers/data_request`, `customers/redact`, `shop/redact`) and `ShopRedactJob` with its reinstall check;
- the `dependent: :destroy` cascades from shop to orders, fulfillment orders and settings, and from order to fulfillment orders;
- `Shop#setup!`, `shop_handle`, `admin_url` and `should_hold_fulfillment_order?`, and the hold-duration options of `Settings`;
- the JSON endpoint `POST /api/shipping_address_updates`: the CORS headers, the bearer session-token check, the 404 for an unknown order, and the mapping of a result to 200 or 422;
- the submit logic of both checkout extensions: form validity, change detection, trimming, the thank-you page's order-id rewrite, the order-status page's bounded retry loop, and the choice of error display.

The persisted state (`Store.Db`) is four maps, keyed by the column that carries a unique index: shops by `shopify_domain`, settings by shop, orders and fulfillment orders by `shopify_id`. Time is an integer number of seconds.

An exception is a value (`Common.Outcome`). A change that can fail after an earlier write was committed returns the store together with the outcome (`Store.Step`).

Remote GraphQL results are parameters. The calls an operation issues and the jobs it enqueues are returned as data, so "exactly one mutation for this order id" and "release due 30 minutes after creation" can be stated.

Where the repository's code and its own specs disagree, the model follows the code. Each such case is listed under "## Findings", with both the as-written behaviour and the corrected one.

Files, one module each:

- `common.dfy`: the shared vocabulary (options, exceptions, remote calls, jobs, job dispositions).
- `strings.dfy`: the Ruby and JavaScript string operations the code relies on.
- `store.dfy`: the store and the destroy cascades.
- `settings.dfy`, `shop.dfy`, `editable.dfy`, `address_editable.dfy`, `fulfillment_order.dfy`, `release_job.dfy`, `compliance.dfy`, `shop_redact_job.dfy`, `api.dfy`: one each for the corresponding Rails class or concern.
- `address_form.dfy`: the form the two extensions share.
- `order_status_editor.dfy` and `thank_you_editor.dfy`: the two extensions' submit logic.

## Model

| member | source | states |
|---|---|---|
| Strings.NatToString | app/controllers/webhooks/compliance_controller.rb:53 | Interpolating a numeric id gives a non-empty run of decimal digits without a leading zero. |
| Strings.NatToStringInjective | app/controllers/webhooks/compliance_controller.rb:53 | Different numbers interpolate to different texts. |
| Strings.IndexOf | app/models/shop.rb:19 | The result is the leftmost occurrence of the separator, and it is absent exactly when the separator does not occur. |
| Strings.ReplaceFirst | extensions/thank-you-address-editor/src/Modal.jsx:84-87 | A string pattern that does not occur leaves the text unchanged; otherwise its leftmost occurrence, and only that one, is replaced. |
| Strings.ReplaceFirstAfter | extensions/thank-you-address-editor/src/Modal.jsx:84-87 | Only the first occurrence is replaced: a later occurrence in the rest of the text is kept. |
| Strings.RemoveAll | app/controllers/api/base_controller.rb:23 | Removing occurrences never lengthens the header, and a header without the pattern is left as it is. |
| Strings.RemoveAllLeading | app/controllers/api/base_controller.rb:23 | A leading occurrence is removed and the rest is scanned as if it stood alone. |
| Strings.TrimCharacterised | extensions/order-status-address-editor/src/Modal.jsx:92 | The trimmed value is a substring of the input, begins and ends with a non-whitespace character, and only whitespace is cut off on either side. |
| Strings.TrimEmptyIffAllSpace | extensions/order-status-address-editor/src/Modal.jsx:71-73 | A value trims to the empty string exactly when it is all whitespace. |
| Strings.TrimIdempotent | extensions/order-status-address-editor/src/Modal.jsx:92 | Trimming an already trimmed value changes nothing. |
| Store.WithoutOrders | app/models/order.rb:8 | Exactly the fulfillment orders not linked to a destroyed order survive, unchanged. |
| Store.DestroyOrder | app/models/order.rb:8 | Destroying an order removes it and exactly its own fulfillment orders; every other order and fulfillment order is kept unchanged. |
| Store.DestroyOrders | app/controllers/webhooks/compliance_controller.rb:49 | Destroying a set of orders removes exactly those orders and the fulfillment orders linked to them; shops and settings are untouched. |
| Store.DestroyOrderThenOrders | app/models/order.rb:8 | Destroying one order and then a set is the same as destroying their union. |
| Store.DestroyEachIsDestroyOrders | app/controllers/webhooks/compliance_controller.rb:49 | Destroying a list one order at a time gives the same store as destroying the set of its elements at once. |
| Store.DestroyOrdersPreservesValid | app/models/order.rb:7-10 | Destroying orders keeps every foreign key and non-blank id of the store. |
| Store.OrdersOf | app/models/shop.rb:6 | The result is exactly the orders that belong to the shop. |
| Store.DestroyShop | app/models/shop.rb:6-8 | Destroying a shop removes it, its settings row, its orders, its own fulfillment orders and those of its orders; every other shop, settings row, order and fulfillment order is kept unchanged. |
| Store.DestroyShopPreservesValid | app/models/shop.rb:6-8 | Destroying a shop leaves no dangling reference. |
| Settings.DurationLabel | app/models/settings.rb:9 | A duration under a day is labelled with its hours and minutes, each in singular or plural, a zero part left out, joined by " and ". |
| Settings.HoldDurationOptionsForSelect | app/models/settings.rb:8-10 | One (label, minutes) pair per option, in the order of the options, each labelled by its duration. |
| Settings.HoldDurationOptionsAscending | app/models/settings.rb:6 | The options are strictly ascending and include the column default of 30 minutes. |
| Settings.MinutesLabels | spec/models/setting_spec.rb:11-12 | 30 and 45 minutes are labelled "30 minutes" and "45 minutes". |
| Settings.HoursLabels | spec/models/setting_spec.rb:13-16 | 60, 120 and 180 minutes are labelled "1 hour", "2 hours" and "3 hours". |
| Settings.MixedLabel | spec/models/setting_spec.rb:14 | 90 minutes is labelled "1 hour and 30 minutes". |
| Settings.HoldDurationLabels | spec/models/setting_spec.rb:10-17 | The select options are exactly the six pairs the settings spec lists. |
| Shops.Setup | app/models/shop.rb:10-12 | Afterwards the shop has settings; an existing row is kept, a missing one is created with the 30-minute default, and nothing else changes. |
| Shops.SetupIdempotent | app/models/shop.rb:10-12 | Running setup twice is running it once, and the store stays consistent. |
| Shops.ShouldHoldFulfillmentOrder | app/models/shop.rb:26-28 | Every shop holds its fulfillment orders. |
| Shops.ShopHandle | app/models/shop.rb:18-20 | There is no handle exactly when the domain is the suffix repeated zero or more times. Otherwise the handle is the text before the first ".myshopify.com": it ends where the first occurrence starts, or it is the whole domain when there is none. |
| Shops.AdminUrl | app/models/shop.rb:22-24 | The admin URL always begins with the store-admin prefix. |
| Shops.SuffixHasNoBorder | app/models/shop.rb:19 | No proper suffix of ".myshopify.com" is also a prefix of it. |
| Shops.FirstSuffixIsAppended | app/models/shop.rb:19 | In a handle followed by the suffix, the first occurrence of the suffix is the appended one. |
| Shops.ShopHandleOfStoreDomain | app/models/shop.rb:18-24 | For a domain `h.myshopify.com`, the handle is `h`, and the admin URL is the prefix, `h` and the path (empty by default). |
| Editable.EditWindowClosesAt | app/models/order/editable.rb:10-12 | The window closes exactly hold-duration × 60 seconds after the remote creation time; a missing creation time or settings row raises. |
| Editable.EditWindowExpired | app/models/order/editable.rb:6-8 | The window is expired exactly when its close time is at or before now; it is defined exactly when the close time is. |
| Editable.BoundaryCountsAsExpired | app/models/order/editable.rb:7 | At the close time itself the window is expired; one second earlier it is open. |
| Editable.ExpiryIsMonotoneInTime | app/models/order/editable.rb:7 | Once expired, a window stays expired at every later time. |
| Editable.LongerHoldKeepsWindowOpen | app/models/order/editable.rb:11 | A longer hold duration never turns an open window into an expired one. |
| Editable.ThirtyMinuteExamples | spec/models/order/address_editable_spec.rb:22-47 | With a 30-minute setting, an order created 45 minutes ago is expired and one created 10 minutes ago is not. |
| AddressEditable.Success | app/models/order/address_editable.rb:7-9 | A success result has no errors and carries the given URL. |
| AddressEditable.Failure | app/models/order/address_editable.rb:11-13 | A failure result carries exactly the given errors and no URL. |
| AddressEditable.Messages | app/models/order/address_editable.rb:17 | The messages of the user errors, one per error, in order. |
| AddressEditable.FromGraphql | app/models/order/address_editable.rb:15-21 | User errors give a failure with their messages in order; none give a success with the order's status-page URL, and a nil order raises; a result succeeds exactly when it has no errors, and exactly when it has a URL. |
| AddressEditable.CallUpdateAddress | app/models/order/address_editable.rb:32-38 | Exactly one mutation for the order id and address; a client exception escapes unchanged; a payload is turned into a result. |
| AddressEditable.UpdateOrderShippingAddress | app/models/order/address_editable.rb:41-43 | The instance method issues exactly one mutation for the order's own id, and it produces a result exactly when the payload has user errors or an order. |
| AddressEditable.FindOrder | app/models/order/address_editable.rb:26 | An order is found exactly when it is stored under that id for that shop. |
| AddressEditable.UpdateShippingAddress | app/models/order/address_editable.rb:25-30 | Whether or not the order is stored, exactly one mutation with the same order id is issued, with the same outcome. |
| AddressEditable.UserErrorEscapes | app/models/order/address_editable.rb:32-38 | As written, a user error raised by the mutation escapes the update: no result and no retryable flag. |
| AddressEditable.ExpiredOrderStillUpdated | app/models/order/address_editable.rb:25-30 | As written, with a 30-minute setting, an order created 45 minutes ago is still updated remotely, and the caller gets a success. |
| AddressEditable.RescueUserError | spec/models/order/address_editable_spec.rb:72-106 | A rescued user error is a failure. It is retryable exactly when its message says the order does not exist, and then it has no banner error; otherwise it carries its own message. |
| AddressEditable.CallUpdateAddressRescuing | spec/models/order/address_editable_spec.rb:72-106 | Still exactly one mutation; a user error becomes a classified failure instead of escaping; only other exceptions escape; only a user error can be retryable. |
| AddressEditable.UpdateShippingAddressCorrected | spec/models/order/address_editable_spec.rb:21-58 | No mutation is issued exactly when the stored order's window has expired, and then the result is "Editing window has expired"; otherwise the rescuing mutation runs. |
| AddressEditable.CorrectedAgreesWithAsWritten | app/models/order/address_editable.rb:25-38 | While the window is open, the corrected update issues the same call as the code as written and returns the same result, not retryable; where the code raises a user error it returns a failure instead. |
| AddressEditable.OrderMissingIsRetryable | spec/models/order/address_editable_spec.rb:83-95 | The "Order does not exist" user error gives a retryable failure with no errors. |
| AddressEditable.OrderMissingMentionsMissingOrder | spec/models/order/address_editable_spec.rb:87 | The spec's message contains "Order does not exist". |
| AddressEditable.OtherUserErrorIsReported | spec/models/order/address_editable_spec.rb:97-106 | Any other user error gives a non-retryable failure carrying its message. |
| AddressEditable.ExpiredOrderShortCircuits | spec/models/order/address_editable_spec.rb:22-32 | An expired stored order gets "Editing window has expired" and no mutation. |
| FulfillmentOrders.OrderlessRecordRejected | app/models/fulfillment_order.rb:4-8 | As written, a record without an order never validates. |
| FulfillmentOrders.OrderlessRecordAccepted | spec/models/fulfillment_order_spec.rb:15-18 | With the order link optional, a record with an id, a status and an existing shop validates without an order, and every record valid as written stays valid. |
| FulfillmentOrders.Save | app/models/fulfillment_order.rb:7-8 | A save succeeds exactly when the validations pass and a new record's id is not yet taken; a success writes exactly that record, a failure raises `RecordInvalid` and writes nothing. |
| FulfillmentOrders.FindOrCreateOrder | app/models/fulfillment_order.rb:37 | Afterwards the shop owns an order with that id, unless the id is blank or owned by another shop, in which case the store is unchanged and `RecordInvalid` is raised; no other record changes, and without a creation time to record a new order has none. |
| FulfillmentOrders.FindInShop | app/models/fulfillment_order.rb:38 | A record is found exactly when it is stored under that id for that shop. |
| FulfillmentOrders.Persist | app/models/fulfillment_order.rb:35-45 | Persisting succeeds exactly under the stated conditions. The record then belongs to the shop, links to the order and has the given status; `held_at` and `shopify_created_at` are overwritten only when given. No other order or fulfillment order changes, and the order stays committed when the save fails. |
| FulfillmentOrders.PersistIdempotent | app/models/fulfillment_order.rb:37-43 | Persisting again with the same arguments leaves the store and the record as they were. |
| FulfillmentOrders.PersistPreservesValid | app/models/fulfillment_order.rb:35-45 | Persisting keeps every foreign key and non-blank id of the store. |
| FulfillmentOrders.NewOrderHasNoEditWindow | app/models/fulfillment_order.rb:37 | As written, an order created by persisting has no creation time, so asking whether its window expired raises. |
| FulfillmentOrders.PersistStampingOrder | app/models/fulfillment_order.rb:35-45 | It succeeds exactly when persisting does, records the remote creation time on an order that lacks one, and never changes one that has it. |
| FulfillmentOrders.StampedOrderHasEditWindow | app/models/order/editable.rb:10-12 | With the creation time recorded, the new order's window closes the shop's hold duration after that time. |
| FulfillmentOrders.ReleaseAt | app/models/fulfillment_order.rb:25 | As written, the release is due 1800 seconds after the remote creation time. |
| FulfillmentOrders.ReleaseAtForShop | app/models/fulfillment_order.rb:25 | Following the shop's setting, the release is due exactly when an order created at the same moment closes its window, and a missing settings row raises. |
| FulfillmentOrders.HardCodedReleaseBeforeWindowCloses | app/models/fulfillment_order.rb:25 | As written, with any setting over 30 minutes the hold is released while the order is still editable. |
| FulfillmentOrders.ShopReleaseMatchesWindow | app/models/fulfillment_order.rb:25-26 | Following the setting, the window has closed when the release is due, and it is still open one second earlier. |
| FulfillmentOrders.HoldImmediatelyAndPersist | app/models/fulfillment_order.rb:20-27 | One hold mutation. On success the record is held since now, has the remote status and creation time, and one release job is due 30 minutes after creation. A failure at any step enqueues nothing, and a failed hold leaves the store unchanged. |
| FulfillmentOrders.PersistAsWritten | app/models/fulfillment_order.rb:35-38 | As written, persisting always raises. It raises `NoMethodError` whenever the intended persist would succeed. The order it finds or creates stays committed, and no fulfillment order is written. |
| FulfillmentOrders.HoldImmediatelyAndPersistAsWritten | app/models/fulfillment_order.rb:20-27 | As written, one hold mutation, no job, and an exception. No fulfillment order is written; the orders are those the intended operation leaves. |
| FulfillmentOrders.HeldButNeverReleased | app/models/fulfillment_order.rb:20-38 | As written, for a new fulfillment order whose data would persist: the hold is placed and the order committed, but `NoMethodError` is raised, the record is not written and no release job exists; the intended operation schedules one. |
| FulfillmentOrders.HeldRecordIsReleased | app/models/fulfillment_order.rb:20-27 | As intended, a held fulfillment order whose data persists is stored as held since now and gets exactly one release job. |
| FulfillmentOrders.PersistFromShopify | app/models/fulfillment_order.rb:29-33 | One fetch and no jobs; `held_at` keeps its previous value (none for a new record). |
| FulfillmentOrders.FromShopifyDeciding | app/models/fulfillment_order.rb:10-18 | With a hold, the hold mutation is issued; without one, the store is untouched, nothing is called, and one persist job is enqueued. |
| FulfillmentOrders.FromShopify | app/models/fulfillment_order.rb:10-18 | Every event requests a hold, and on success the release is due 30 minutes after creation whatever the shop's setting. |
| FulfillmentOrders.FromShopifyIdempotentStore | app/models/fulfillment_order.rb:10-45 | Delivering the same event again leaves the store as one delivery did. |
| ReleaseHoldJob.Record | app/jobs/release_fulfillment_order_hold_job.rb:6-7 | Throttling counts only against the throttling declaration, and a server error only against the server-error one; any other reply counts against neither. |
| ReleaseHoldJob.Classify | app/jobs/release_fulfillment_order_hold_job.rb:6-8 | A user error is discarded; throttling is retried until its tenth occurrence and a server error until its tenth occurrence, each counted on its own; everything else fails with its error. |
| ReleaseHoldJob.Perform | app/jobs/release_fulfillment_order_hold_job.rb:10-17 | A missing record fails without a call; otherwise the release is called for the record's id. The job completes exactly when the reply carries a status under which the record still validates, and then only that status changes; otherwise the store is unchanged; it is discarded exactly on a user error, and retried exactly when the release raised an error that `Classify` retries under the tally. |
| ReleaseHoldJob.ReleaseCopiesStatus | app/jobs/release_fulfillment_order_hold_job.rb:15 | On a consistent store, the released status is copied and `held_at` is kept. |
| ReleaseHoldJob.RaisedIsClassified | app/jobs/release_fulfillment_order_hold_job.rb:6-14 | For a stored record with its shop, an execution whose release raises is decided by the exception and the tally alone. |
| ReleaseHoldJob.RetryContinues | app/jobs/release_fulfillment_order_hold_job.rb:6-7 | A retried execution raised throttling or a server error, keeps both counts under ten, and the run continues from the next execution. |
| ReleaseHoldJob.RunFrom | app/jobs/release_fulfillment_order_hold_job.rb:6-7 | The retries end by the nineteenth execution, on an execution that is not retried; its number is one more than the errors tallied before it. A failure on throttling, or on a server error, comes at the tenth occurrence of that error. |
| ReleaseHoldJob.RunWithRetries | app/jobs/release_fulfillment_order_hold_job.rb:6-17 | At most nineteen executions; every execution before the last was retried, and the last was not. |
| ReleaseHoldJob.PersistentThrottlingFailsAfterTenExecutions | app/jobs/release_fulfillment_order_hold_job.rb:6 | Constant throttling makes the job run exactly ten times and then fail with the throttling error. |
| ReleaseHoldJob.AlternatingStep | app/jobs/release_fulfillment_order_hold_job.rb:6-7 | When throttling and server errors alternate, each execution gets the error the tally predicts, and the runner decides by that error's own count. |
| ReleaseHoldJob.AlternatingFailuresRunNineteenTimes | app/jobs/release_fulfillment_order_hold_job.rb:6-7 | When throttling and server errors alternate, the job runs nineteen times and fails on the tenth throttling error. |
| Compliance.OrderGid | app/controllers/webhooks/compliance_controller.rb:53 | The id is "gid://shopify/Order/" followed by the number's digits. |
| Compliance.OrderGidInjective | app/controllers/webhooks/compliance_controller.rb:53 | Different numbers give different order ids. |
| Compliance.AsArray | app/controllers/webhooks/compliance_controller.rb:53 | A nil field gives no ids, a single id gives a one-element list, and a list is kept. |
| Compliance.FindOrders | app/controllers/webhooks/compliance_controller.rb:52-55 | Exactly the shop's orders whose id is the order id of a requested number; orders of other shops never match. |
| Compliance.FindOrdersByNumber | app/controllers/webhooks/compliance_controller.rb:52-55 | A shop's order with number n is found exactly when n was requested. |
| Compliance.DataRequest | app/controllers/webhooks/compliance_controller.rb:23-35 | A known shop's requested orders are reported, and only that shop's orders; an unknown shop reports nothing. |
| Compliance.CustomerRedact | app/controllers/webhooks/compliance_controller.rb:37-50 | For a known shop, exactly its requested orders and their fulfillment orders are destroyed, and other shops' orders stay; an unknown shop changes nothing. |
| Compliance.DestroyNothing | spec/controllers/webhooks/compliance_controller_spec.rb:116-124 | Redacting when no order matches changes nothing. |
| Compliance.CustomerRedactIdempotent | app/controllers/webhooks/compliance_controller.rb:37-50 | Redacting twice is redacting once, and the store stays consistent. |
| Compliance.CustomerRedactByNumber | spec/controllers/webhooks/compliance_controller_spec.rb:83-94 | A shop's order survives a redaction exactly when its number was not among those to redact. |
| Compliance.Receive | app/controllers/webhooks/compliance_controller.rb:6-19 | Every topic is answered with 204; only a customer redaction writes; only a shop redaction enqueues a job, due 48 hours after receipt and carrying the receipt time. |
| ShopRedactJob.Perform | app/jobs/shop_redact_job.rb:6-14 | An unknown shop is discarded; a shop updated after the request is kept; otherwise the shop, its settings, its orders and its fulfillment orders are gone. No remote call is made. |
| ShopRedactJob.DestroyedIffNotReinstalled | app/jobs/shop_redact_job.rb:11-13 | The shop is destroyed exactly when it exists and was not updated after the request; other shops and their orders stay. |
| ShopRedactJob.PerformIdempotent | app/jobs/shop_redact_job.rb:6-13 | Running the job again changes nothing, and the store stays consistent. |
| ShopRedactJob.WebhookThenJob | app/controllers/webhooks/compliance_controller.rb:15 | The job enqueued for a shop redaction runs 48 hours later and removes the shop exactly when the shop was not updated after the webhook arrived. |
| Api.CorsHeaders | app/controllers/api/base_controller.rb:15-20 | The origin is echoed exactly when it begins, ignoring case, with the extensions CDN's origin; methods and headers are fixed. |
| Api.CorsIsPrefixMatch | app/controllers/api/base_controller.rb:17 | Any origin that extends the CDN's origin is echoed; a foreign origin or a missing one is not. |
| Api.BearerTokenExtracted | app/controllers/api/base_controller.rb:23 | The header "Bearer t" yields t when t itself has no "Bearer "; no header yields no token. |
| Api.VerifySessionToken | app/controllers/api/base_controller.rb:22-31 | A missing or blank token is "Missing session token"; a token that does not decode, or names no stored shop, is "Invalid session token"; otherwise the request belongs to the decoded shop. |
| Api.ErrorBody | app/controllers/api/base_controller.rb:33-35 | An error body is unsuccessful, carries exactly the errors and nothing else. |
| Api.FirstError | extensions/order-status-address-editor/src/Modal.jsx:134 | The first error is present exactly when the errors list has a non-empty first entry. |
| Api.ResultResponse | app/controllers/api/shipping_address_updates_controller.rb:11-15 | A success is 200 with the status-page URL; a failure is 422 with the errors. |
| Api.Create | app/controllers/api/shipping_address_updates_controller.rb:7-16 | A rejected token is 401 with its message and no call. An order the shop does not own is 404 "Record not found" with no call. Otherwise exactly one mutation for the order id is issued, and a returned result is rendered as `ResultResponse` renders it: 200 with its status-page URL, or 422 with its errors. The status is 200 exactly when the body succeeds, 500 exactly when there is no JSON body, and the body never has `retryable` or `fieldErrors`. Every response but the 500 carries the CORS headers for the request's origin; the 500 carries none. |
| Api.Options | app/controllers/api/shipping_address_updates_controller.rb:18-20 | 200 with the CORS headers and no body, whatever the token. |
| Api.UserErrorIsServerError | app/controllers/api/shipping_address_updates_controller.rb:8-9 | As written, a user error from the mutation reaches the client as a 500 without a JSON body or CORS headers. |
| Api.ClassifiedResponse | app/controllers/api/shipping_address_updates_controller.rb:11-15 | The corrected response is 200 exactly on success, and it is flagged retryable exactly for a retryable failure. |
| Api.CreateCorrected | app/controllers/api/shipping_address_updates_controller.rb:7-16 | At most one mutation; a retryable flag only ever comes with a 422 for a user error; a user error never becomes a 500. CORS headers are on every response but a 500. |
| Api.CorrectedSignalsRetry | spec/models/order/address_editable_spec.rb:83-95 | With the corrected update, the not-yet-visible order gives a 422 flagged retryable with no errors. |
| AddressForm.AllFieldsListsEveryFieldOnce | extensions/order-status-address-editor/src/Modal.jsx:11-51 | The field list holds every field exactly once. |
| AddressForm.NameInjective | extensions/order-status-address-editor/src/Modal.jsx:11-51 | Different fields have different names. |
| AddressForm.Set | extensions/order-status-address-editor/src/Modal.jsx:147-151 | Editing a field gives it the new value and leaves every other field as it was. |
| AddressForm.FromShipping | extensions/order-status-address-editor/src/Modal.jsx:62-69 | Each field starts with the checkout address's value under its name, or empty. |
| AddressForm.EveryRequiredFilled | extensions/order-status-address-editor/src/Modal.jsx:71-73 | True exactly when every required field of the list has a non-empty trimmed value. |
| AddressForm.IsFormValid | extensions/order-status-address-editor/src/Modal.jsx:71-73 | The form is valid exactly when every field passes: it is optional (second address line; first name in German) or trims to something non-empty. |
| AddressForm.EveryFieldChecked | extensions/order-status-address-editor/src/Modal.jsx:71-73 | Checking the listed fields checks every field of the form. |
| AddressForm.FilledIffNotBlank | extensions/order-status-address-editor/src/Modal.jsx:71-73 | A field passes exactly when it is optional or not all whitespace. |
| AddressForm.ValidIffNotBlank | extensions/order-status-address-editor/src/Modal.jsx:71-73 | The form is valid exactly when none of those required fields is all whitespace. |
| AddressForm.GermanValidityIsWeaker | extensions/order-status-address-editor/src/Modal.jsx:9-17 | A form valid outside German is valid in German. |
| AddressForm.GermanIgnoresFirstName | extensions/order-status-address-editor/src/Modal.jsx:9-17 | In German, changing the first name never changes validity. |
| AddressForm.SecondLineNeverMatters | extensions/order-status-address-editor/src/Modal.jsx:9-17 | Changing the second address line never changes validity, in either language. |
| AddressForm.AnyDiffers | extensions/order-status-address-editor/src/Modal.jsx:74-76 | True exactly when some listed field differs from the snapshot. |
| AddressForm.HasChanges | extensions/order-status-address-editor/src/Modal.jsx:74-76 | The form has changes exactly when it differs from the snapshot. |
| AddressForm.EditingBackRestoresNoChanges | extensions/order-status-address-editor/src/Modal.jsx:74-76 | A fresh form has no changes, editing a field to a new value makes one, and editing it back removes it. |
| AddressForm.Submitted | extensions/order-status-address-editor/src/Modal.jsx:91-93 | Every field is submitted under its name with its value trimmed, and nothing else is submitted. |
| AddressForm.SubmittedValuesAreTrimmed | extensions/order-status-address-editor/src/Modal.jsx:91-93 | Submitted values have no surrounding whitespace, and a valid form submits a non-empty value for every required field. |
| AddressForm.UpdateRequest | extensions/order-status-address-editor/src/Modal.jsx:78-98 | The request carries the order id and the trimmed fields, and its authorization header begins with "Bearer ". |
| AddressForm.SessionTokenReachesBackend | extensions/order-status-address-editor/src/Modal.jsx:87 | The backend extracts exactly the session token the editor sent, when the token has no "Bearer " in it. |
| OrderStatusEditor.ReplyOf | extensions/order-status-address-editor/src/Modal.jsx:97 | A response parses to its JSON body; a failed fetch or a body that is not JSON throws. |
| OrderStatusEditor.ErrorDisplay | extensions/order-status-address-editor/src/Modal.jsx:129-139 | The zip error shows exactly when the field errors name "zip"; the banner is the first error when there is one, else the generic failure unless the zip error shows; the banner is empty exactly when there is no first error and the zip error shows. |
| OrderStatusEditor.PacedLowerBound | extensions/order-status-address-editor/src/Modal.jsx:121-123 | After k waits of at least 2000 ms, at least 2000·k ms have passed since the start. |
| OrderStatusEditor.Loop | extensions/order-status-address-editor/src/Modal.jsx:110-127 | From the k-th request on, the loop sends between k+1 and nine requests in total, and it ends with loading reset. |
| OrderStatusEditor.HandleSubmit | extensions/order-status-address-editor/src/Modal.jsx:100-145 | One to nine requests. Every reply but the last was a retryable failure within 15000 ms, and the last was not. Success exactly when the last reply succeeded, with its URL. A throw shows the network error. A final failed JSON reply shows its error display: the zip error when the reply names the zip field, and its first error as the banner, or the generic text when there is neither. Loading is reset. |
| OrderStatusEditor.NineSubmissionsReachable | extensions/order-status-address-editor/src/Modal.jsx:106-123 | Nine requests happen when every reply is a retryable failure and each wait lasts exactly 2000 ms, so the bound of nine is tight. |
| OrderStatusEditor.OneRequestWithoutRetryFlag | extensions/order-status-address-editor/src/Modal.jsx:121 | Replies without `retryable` give exactly one request, and replies without `fieldErrors` never show the zip error. |
| OrderStatusEditor.BackendNeverTriggersRetry | app/controllers/api/shipping_address_updates_controller.rb:11-15 | Against the backend as written, every submit sends exactly one request. |
| OrderStatusEditor.RetryableFailureIsResubmitted | extensions/order-status-address-editor/src/Modal.jsx:121-123 | A retryable failure within the time budget is followed by another request. |
| OrderStatusEditor.UpdateField | extensions/order-status-address-editor/src/Modal.jsx:147-153 | Editing sets exactly that field, keeps the snapshot, and clears the zip error exactly when the zip field is edited. |
| OrderStatusEditor.FreshFormCannotSave | extensions/order-status-address-editor/src/Modal.jsx:62-76 | A freshly opened editor cannot save before a field is changed. |
| ThankYouEditor.RewriteOrderId | extensions/thank-you-address-editor/src/Modal.jsx:84-87 | An id without "OrderIdentity" is unchanged, and no id grows. |
| ThankYouEditor.RewriteConfirmationId | extensions/thank-you-address-editor/src/Modal.jsx:84-87 | `gid://shopify/OrderIdentity/…` becomes `gid://shopify/Order/…`, and only the first occurrence is rewritten. |
| ThankYouEditor.HandleSubmit | extensions/thank-you-address-editor/src/Modal.jsx:77-119 | Exactly one request. Success exactly when the status is 2xx and the body says success, with its URL. Otherwise the first error, or the generic failure when there is none. A throw or a body that is not JSON shows the network error. Loading is reset. |
| ThankYouEditor.ShowsBackendAnswer | extensions/thank-you-address-editor/src/Modal.jsx:105-113 | Against the backend, a submit succeeds exactly on a 200, a 404 shows "Record not found", and a 500 shows the network error. |

## Left out

- GraphQL operation classes: their results, including the exceptions the client raises, are parameters; `Time.parse` of the remote creation time is left out, and the time is an integer input.
- Webhook HMAC verification and JWT decoding: the decoder is a parameter returning the token's shop domain or nothing; an invalid HMAC never reaches the controller.
- Shop sessions (`with_shopify_session`), routing, logging text, Sentry, and the data-request's `created_at` output: they carry no decision. For a data request, only the set of orders found is modelled.
- The job queue itself: delays and polynomial backoff are not modelled; only the due time and the retry, discard or fail decision are.
- Concurrency: two deliveries of one webhook racing on `find_or_create_by!` are out of scope; the store is sequential.
- `FulfillmentOrderPersistJob` and `FulfillmentOrdersRoutingCompleteJob`: the first calls a `persist_from_shopify` method that does not exist, and the second is a stub. The deferred path is modelled up to enqueuing the job, and `persist_from_shopify!` is modelled on its own.
- `find_or_initialize_by!` is not an ActiveRecord method (see "## Findings"). Everywhere except FulfillmentOrders.PersistAsWritten it is read as a shop-scoped `find_or_initialize_by` followed by `save!`.
- The settings page, onboarding, subscriptions, and all extension markup, translations and `BACKEND_URL` selection are UI only.
- Order-status extension zip-error text: "zip" is the only field-error code the editor understands; the backend never sends one.
- Rails' HTML error page for an unhandled exception: a 500 is modelled as a response without a JSON body and without CORS headers, since the page is a new response built outside the controller's filters; its markup is not modelled.
- The first name's German rule depends only on the language code, which is a parameter.
- Settings.DurationLabel: only durations under one day are labelled, because every option is shorter.
- Shops.AdminUrl: its own contract states only the prefix. The full URL is stated by Shops.ShopHandleOfStoreDomain for domains of the form `h.myshopify.com`.
- Api.CorsHeaders: case is ignored for ASCII letters only, because Unicode case folding is not modelled. Ruby's `/i` folds Unicode letters too, so an origin such as `https://extenſions.shopifycdn.com` (with U+017F, the long s) is allowed by the code but refused by the model.
- ThankYouEditor.RewriteOrderId: its own contract states only the no-occurrence case. The rewrite of a confirmation id is stated by ThankYouEditor.RewriteConfirmationId.
- FulfillmentOrders.HoldImmediatelyAndPersist: the release job carries the fulfillment order's `shopify_id` instead of its integer primary key `record.id`, because the store is keyed by `shopify_id`. The two agree while the record lives. They differ when the record is destroyed (a customer redact cascades to it) and a redelivered event re-creates it before the old job runs: the code's old job then raises `RecordNotFound`, while the model's releases the new record.
- ReleaseHoldJob.Perform: looks the record up by `shopify_id`, not by primary key, so a re-created record is found where `FulfillmentOrder.find` raises `RecordNotFound` (see the line above).
- FulfillmentOrders.FromShopifyIdempotentStore: the redelivery is taken at the same `now`; a later redelivery moves `held_at` forward.
- Numeric ids in compliance payloads are natural numbers, because Shopify ids are never negative.
- Time is whole seconds: sub-second timestamps and time zones play no part in any comparison the code makes.

## Findings

| source | as written | input that shows it | evidently intended | confidence | as-written member | corrected member |
|---|---|---|---|---|---|---|
| app/models/fulfillment_order.rb:25 | The release is scheduled 30 minutes after creation, whatever the shop's hold duration. | A shop set to 60 minutes: the hold is released at 30 minutes while the order can still be edited for another 30. | The release is due when the shop's edit window closes. | high, not executed | FulfillmentOrders.HardCodedReleaseBeforeWindowCloses | FulfillmentOrders.ShopReleaseMatchesWindow |
| app/models/fulfillment_order.rb:37 | `persist!` creates the order without `shopify_created_at`. | Any fulfillment-order event for an unknown order: `edit_window_expired?` on the new order raises. | The order records the remote creation time, so its window is defined. | high, not executed | FulfillmentOrders.NewOrderHasNoEditWindow | FulfillmentOrders.StampedOrderHasEditWindow |
| app/models/order/address_editable.rb:25-30 | No edit-window check is made before the mutation. | A 30-minute setting and an order created 45 minutes ago: the address is still changed and the caller gets a success. | An expired window is refused with "Editing window has expired" and no mutation. | high, not executed | AddressEditable.ExpiredOrderStillUpdated | AddressEditable.ExpiredOrderShortCircuits |
| app/models/order/address_editable.rb:32-38 | A user error raised by the mutation is not rescued, and no result carries `retryable`. | The user error "Failed. Response message = Order does not exist. Fields = [\"id\"].": the endpoint answers 500 without a JSON body, and the extension shows the network error instead of retrying. | A user error becomes a failure; a not-yet-visible order is flagged retryable with no banner error. | high, not executed | Api.UserErrorIsServerError | Api.CorrectedSignalsRetry |
| app/models/fulfillment_order.rb:38 | `persist!` calls `find_or_initialize_by!`, which ActiveRecord does not define. | Any fulfillment-order event whose hold succeeds: `find_or_create_by!` commits the order, then `NoMethodError` is raised. The hold stays in place, no record is written and no release job is enqueued. | A shop-scoped `find_or_initialize_by` followed by `save!`, so the record is written and its release scheduled. | high, not executed | FulfillmentOrders.HeldButNeverReleased | FulfillmentOrders.HeldRecordIsReleased |
| app/models/fulfillment_order.rb:5 | `belongs_to :order` is required, although the column is nullable. | A record with an id, a status and a shop but no order fails validation. | The order link is optional. | medium, not executed | FulfillmentOrders.OrderlessRecordRejected | FulfillmentOrders.OrderlessRecordAccepted |

=== FILE: address_editable.dfy ===
/** Updating an order's shipping address through the remote `orderUpdate`
    mutation, and the value object that reports the outcome. */
module AddressEditable {
  import opened Common
  import opened Strings
  import opened Store
  import Editable

  type Address = map<string, string>

  /** `AddressUpdateResult`: success flag, banner errors, status-page URL. */
  datatype AddressUpdateResult = AddressUpdateResult(success: bool, errors: seq<string>, statusPageUrl: Option<string>)

  /** One entry of the mutation's `userErrors`. */
  datatype UserErrorEntry = UserErrorEntry(field: seq<string>, message: string)

  /** The order part of the mutation's payload. */
  datatype RemoteOrder = RemoteOrder(id: string, statusPageUrl: string)

  /** The `orderUpdate` payload: user errors, and the order (nil when the
      update was refused). */
  datatype UpdatePayload = UpdatePayload(userErrors: seq<UserErrorEntry>, order: Option<RemoteOrder>)

  /** What one address update did: the mutations it issued and its result
      (or the exception that escaped it). */
  datatype UpdateRun = UpdateRun(calls: seq<RemoteCall>, outcome: Outcome<AddressUpdateResult>)

  const ExpiredMessage: string := "Editing window has expired"

  /** `AddressUpdateResult.success`. */
  function Success(url: string): (r: AddressUpdateResult)
    ensures r.success && r.errors == [] && r.statusPageUrl == Some(url)
  {
    AddressUpdateResult(true, [], Some(url))
  }

  /** `AddressUpdateResult.failure`. */
  function Failure(errors: seq<string>): (r: AddressUpdateResult)
    ensures !r.success && r.errors == errors && r.statusPageUrl.None?
  {
    AddressUpdateResult(false, errors, None)
  }

  /** `userErrors.map(&:message)`. */
  function Messages(es: seq<UserErrorEntry>): (ms: seq<string>)
    ensures |ms| == |es|
    ensures forall i :: 0 <= i < |es| ==> ms[i] == es[i].message
  {
    seq(|es|, i requires 0 <= i < |es| => es[i].message)
  }

  /** `AddressUpdateResult.from_graphql`: a failure carrying the user-error
      messages in order when there are any, otherwise a success carrying
      the order's status-page URL (reading it from a nil order raises). */
  function FromGraphql(p: UpdatePayload): (r: Outcome<AddressUpdateResult>)
    ensures |p.userErrors| > 0 ==> r.Done? && !r.value.success && r.value.errors == Messages(p.userErrors)
    ensures |p.userErrors| == 0 && p.order.Some? ==> r == Done(Success(p.order.value.statusPageUrl))
    ensures |p.userErrors| == 0 && p.order.None? ==> r == Raised(NoMethodError)
    ensures r.Done? ==> (r.value.success <==> r.value.errors == [])
    ensures r.Done? ==> (r.value.success <==> r.value.statusPageUrl.Some?)
  {
    if |p.userErrors| > 0 then Done(Failure(Messages(p.userErrors)))
    else match p.order
      case Some(o) => Done(Success(o.statusPageUrl))
      case None => Raised(NoMethodError)
  }

  /** `call_update_address`: exactly one `orderUpdate` mutation for the
      given order id; an exception the client raises (a user error among
      them) is not rescued and escapes. */
  function CallUpdateAddress(orderId: string, address: Address, remote: Outcome<UpdatePayload>): (r: UpdateRun)
    ensures r.calls == [UpdateOrderAddress(orderId, address)]
    ensures remote.Raised? ==> r.outcome == Raised(remote.error)
    ensures remote.Done? ==> r.outcome == FromGraphql(remote.value)
  {
    var outcome := match remote
      case Done(p) => FromGraphql(p)
      case Raised(e) => Raised(e);
    UpdateRun([UpdateOrderAddress(orderId, address)], outcome)
  }

  /** The instance method `update_shipping_address` of the order stored
      under `orderId`: the mutation for the order's own `shopify_id`, with
      no look at the order's edit window. */
  function UpdateOrderShippingAddress(orderId: string, address: Address, remote: Outcome<UpdatePayload>): (r: UpdateRun)
    ensures r.calls == [UpdateOrderAddress(orderId, address)]
    ensures r.outcome.Done? <==> remote.Done? && (|remote.value.userErrors| > 0 || remote.value.order.Some?)
  {
    CallUpdateAddress(orderId, address, remote)
  }

  /** The shop's order stored under `orderId`, if any. */
  function FindOrder(db: Db, shop: string, orderId: string): (o: Option<Order>)
    ensures o.Some? <==> orderId in db.orders && db.orders[orderId].shop == shop
    ensures o.Some? ==> o.value == db.orders[orderId]
  {
    if orderId in db.orders && db.orders[orderId].shop == shop then Some(db.orders[orderId]) else None
  }

  /** The class method `update_shipping_address`, as written: it
      dispatches to the stored order when there is one and calls the
      mutation directly otherwise. Either way exactly one mutation is
      issued for `orderId`, no edit-window check is made, and the store is
      not consulted beyond the lookup. */
  function UpdateShippingAddress(db: Db, shop: string, orderId: string, address: Address,
                                 remote: Outcome<UpdatePayload>): (r: UpdateRun)
    ensures r.calls == [UpdateOrderAddress(orderId, address)]
    ensures r.outcome == CallUpdateAddress(orderId, address, remote).outcome
  {
    match FindOrder(db, shop, orderId)
    case Some(_) => UpdateOrderShippingAddress(orderId, address, remote)
    case None => CallUpdateAddress(orderId, address, remote)
  }

  // ---------------------------------------------------------------------
  // The behaviour the order's specs and the extensions expect
  // ---------------------------------------------------------------------

  /** The text by which a user error says the order is not yet visible
      remotely, so that the caller should try again. */
  const OrderNotVisibleMessage: string := "Order does not exist"

  /** A result together with the `retryable` flag the order's specs read. */
  datatype ClassifiedResult = ClassifiedResult(result: AddressUpdateResult, retryable: bool)

  datatype ClassifiedRun = ClassifiedRun(calls: seq<RemoteCall>, outcome: Outcome<ClassifiedResult>)

  /** A rescued user error: retryable with no banner error when the order
      is not yet visible, otherwise a plain failure carrying the message. */
  function RescueUserError(message: string): (r: ClassifiedResult)
    ensures !r.result.success && r.result.statusPageUrl.None?
    ensures r.retryable <==> Contains(message, OrderNotVisibleMessage)
    ensures r.retryable ==> r.result.errors == []
    ensures !r.retryable ==> r.result.errors == [message]
  {
    if Contains(message, OrderNotVisibleMessage) then ClassifiedResult(Failure([]), true)
    else ClassifiedResult(Failure([message]), false)
  }

  /** `call_update_address` with the user error rescued and classified:
      still exactly one mutation; only transport errors (and a nil order)
      escape. */
  function CallUpdateAddressRescuing(orderId: string, address: Address, remote: Outcome<UpdatePayload>): (r: ClassifiedRun)
    ensures r.calls == [UpdateOrderAddress(orderId, address)]
    ensures r.outcome.Raised? ==> !r.outcome.error.UserError?
    ensures r.outcome.Done? && r.outcome.value.retryable ==> remote.Raised? && remote.error.UserError?
    ensures remote.Raised? && remote.error.UserError? ==> r.outcome == Done(RescueUserError(remote.error.message))
    ensures remote.Raised? && !remote.error.UserError? ==> r.outcome == Raised(remote.error)
  {
    var outcome := match remote
      case Raised(UserError(m)) => Done(RescueUserError(m))
      case Raised(e) => Raised(e)
      case Done(p) =>
        match FromGraphql(p)
        case Done(res) => Done(ClassifiedResult(res, false))
        case Raised(e) => Raised(e);
    ClassifiedRun([UpdateOrderAddress(orderId, address)], outcome)
  }

  /** Whether a stored order's window has expired at `now`. */
  predicate StoredOrderExpired(db: Db, shop: string, orderId: string, now: Time)
  {
    var o := FindOrder(db, shop, orderId);
    o.Some? && Editable.EditWindowExpired(db, o.value, now) == Done(true)
  }

  /** The class method `update_shipping_address` as the order's specs
      describe it: a stored order whose edit window has expired is refused
      with "Editing window has expired" before any mutation is issued;
      otherwise the mutation is called and a user error is classified. */
  function UpdateShippingAddressCorrected(db: Db, shop: string, orderId: string, address: Address,
                                         remote: Outcome<UpdatePayload>, now: Time): (r: ClassifiedRun)
    ensures |r.calls| <= 1
    ensures r.calls == [] <==> StoredOrderExpired(db, shop, orderId, now)
    ensures r.calls == [] ==> r.outcome == Done(ClassifiedResult(Failure([ExpiredMessage]), false))
    ensures r.calls != [] ==> r == CallUpdateAddressRescuing(orderId, address, remote)
  {
    if StoredOrderExpired(db, shop, orderId, now) then
      ClassifiedRun([], Done(ClassifiedResult(Failure([ExpiredMessage]), false)))
    else CallUpdateAddressRescuing(orderId, address, remote)
  }

  /** Where the code as written returns a result and the window is open,
      the corrected method returns the same result, not retryable, after
      the same single mutation; where the code raises a user error, the
      corrected method returns a failure instead. */
  lemma CorrectedAgreesWithAsWritten(db: Db, shop: string, orderId: string, address: Address,
                                     remote: Outcome<UpdatePayload>, now: Time)
    requires !StoredOrderExpired(db, shop, orderId, now)
    ensures var w := UpdateShippingAddress(db, shop, orderId, address, remote);
      var c := UpdateShippingAddressCorrected(db, shop, orderId, address, remote, now);
      && c.calls == w.calls
      && (w.outcome.Done? ==> c.outcome == Done(ClassifiedResult(w.outcome.value, false)))
      && (w.outcome.Raised? && !w.outcome.error.UserError? ==> c.outcome == Raised(w.outcome.error))
      && (w.outcome.Raised? && w.outcome.error.UserError? ==> c.outcome.Done? && !c.outcome.value.result.success)
  {
  }

  /** The user error the mutation raises when the order is not yet
      visible, and another one. */
  const OrderMissingError: string := "Failed. Response message = " + OrderNotVisibleMessage + ". Fields = [\"id\"]."
  const OtherError: string := "Some other error"

  /** A not-yet-visible order, as the order's spec words it, gives a
      retryable failure with no banner error. */
  lemma OrderMissingIsRetryable(orderId: string, address: Address)
    ensures CallUpdateAddressRescuing(orderId, address, Raised(UserError(OrderMissingError))).outcome
      == Done(ClassifiedResult(Failure([]), true))
  {
    OrderMissingMentionsMissingOrder();
  }

  lemma OrderMissingMentionsMissingOrder()
    ensures Contains(OrderMissingError, OrderNotVisibleMessage)
  {
    var before := "Failed. Response message = ";
    assert OrderMissingError[|before|..|before| + |OrderNotVisibleMessage|] == OrderNotVisibleMessage;
    assert OccursAt(OrderMissingError, OrderNotVisibleMessage, |before|);
  }

  /** Any other user error gives a non-retryable failure carrying its
      message. */
  lemma OtherUserErrorIsReported(orderId: string, address: Address)
    ensures CallUpdateAddressRescuing(orderId, address, Raised(UserError(OtherError))).outcome
      == Done(ClassifiedResult(Failure([OtherError]), false))
  {
    assert |OtherError| < |OrderNotVisibleMessage|;
  }

  /** As written, a user error from the mutation is not rescued: it escapes
      the method, so no `AddressUpdateResult` (and no retryable flag) is
      produced for it. */
  lemma UserErrorEscapes(db: Db, shop: string, orderId: string, address: Address, message: string)
    ensures UpdateShippingAddress(db, shop, orderId, address, Raised(UserError(message))).outcome
      == Raised(UserError(message))
  {
  }

  /** A stored order whose window has expired gets the expiry failure and
      no mutation. */
  lemma ExpiredOrderShortCircuits(db: Db, shop: string, orderId: string, address: Address,
                                  remote: Outcome<UpdatePayload>, now: Time)
    requires StoredOrderExpired(db, shop, orderId, now)
    ensures UpdateShippingAddressCorrected(db, shop, orderId, address, remote, now)
      == ClassifiedRun([], Done(ClassifiedResult(Failure([ExpiredMessage]), false)))
  {
  }

  /** As written, an order whose window closed fifteen minutes ago still
      has its address changed remotely and the caller is told it worked. */
  lemma ExpiredOrderStillUpdated()
    ensures var db := Db(map["test.myshopify.com" := Shop(0)],
                         map["test.myshopify.com" := ShopSettings(30)],
                         map["gid://shopify/Order/123" := Order("test.myshopify.com", Some(0))],
                         map[]);
      var payload := UpdatePayload([], Some(RemoteOrder("gid://shopify/Order/123", "https://example.com/status")));
      var run := UpdateShippingAddress(db, "test.myshopify.com", "gid://shopify/Order/123", map[], Done(payload));
      && StoredOrderExpired(db, "test.myshopify.com", "gid://shopify/Order/123", 45 * 60)
      && run.calls == [UpdateOrderAddress("gid://shopify/Order/123", map[])]
      && run.outcome == Done(Success("https://example.com/status"))
  {
  }
}

=== FILE: address_form.dfy ===
/** The address form both checkout extensions share: its six fields, which
    of them are required, form validity, change detection against the
    snapshot taken on open, and the trimmed values that are submitted. */
module AddressForm {
  import opened Common
  import opened Strings
  import Api

  datatype Field = FirstName | LastName | Address1 | Address2 | Zip | City

  /** `ALL_FIELDS`, in the order of the form's rows. */
  const AllFields: seq<Field> := [FirstName, LastName, Address1, Address2, Zip, City]

  /** The form's values, one string per field. */
  datatype Address = Address(firstName: string, lastName: string, address1: string,
                             address2: string, zip: string, city: string)

  /** What the form shows below its fields after a submit. */
  datatype Banner = Message(text: string) | UpdateFailed | NetworkError

  /** The field's `name`, which is also its key in the request body. */
  function Name(f: Field): string
  {
    match f
    case FirstName => "firstName"
    case LastName => "lastName"
    case Address1 => "address1"
    case Address2 => "address2"
    case Zip => "zip"
    case City => "city"
  }

  /** Every field is listed, each once. */
  lemma AllFieldsListsEveryFieldOnce()
    ensures forall f: Field :: f in AllFields
    ensures forall i, j :: 0 <= i < j < |AllFields| ==> AllFields[i] != AllFields[j]
  {
    forall f: Field ensures f in AllFields {
      match f
      case FirstName => assert AllFields[0] == f;
      case LastName => assert AllFields[1] == f;
      case Address1 => assert AllFields[2] == f;
      case Address2 => assert AllFields[3] == f;
      case Zip => assert AllFields[4] == f;
      case City => assert AllFields[5] == f;
    }
  }

  /** Different fields have different names. */
  lemma NameInjective(f: Field, g: Field)
    ensures Name(f) == Name(g) ==> f == g
  {
    if Name(f) == Name(g) && |Name(f)| == 8 {
      assert Name(f)[0] == Name(g)[0];
      assert Name(f)[7] == Name(g)[7];
    }
  }

  function Get(a: Address, f: Field): string
  {
    match f
    case FirstName => a.firstName
    case LastName => a.lastName
    case Address1 => a.address1
    case Address2 => a.address2
    case Zip => a.zip
    case City => a.city
  }

  /** `updateField(name)`: the one field takes the new value. */
  function Set(a: Address, f: Field, v: string): (r: Address)
    ensures Get(r, f) == v
    ensures forall g :: g != f ==> Get(r, g) == Get(a, g)
  {
    match f
    case FirstName => a.(firstName := v)
    case LastName => a.(lastName := v)
    case Address1 => a.(address1 := v)
    case Address2 => a.(address2 := v)
    case Zip => a.(zip := v)
    case City => a.(city := v)
  }

  /** Two addresses agreeing on every field are the same address. */
  lemma Extensionality(a: Address, b: Address)
    requires forall f :: Get(a, f) == Get(b, f)
    ensures a == b
  {
    assert Get(a, FirstName) == Get(b, FirstName) && Get(a, LastName) == Get(b, LastName);
    assert Get(a, Address1) == Get(b, Address1) && Get(a, Address2) == Get(b, Address2);
    assert Get(a, Zip) == Get(b, Zip) && Get(a, City) == Get(b, City);
  }

  /** The initial values: each field's entry of the checkout's shipping
      address, or "" when it has none. */
  function FromShipping(shipping: map<string, string>): (a: Address)
    ensures forall f :: Get(a, f) == (if Name(f) in shipping then shipping[Name(f)] else "")
  {
    var v := (f: Field) => if Name(f) in shipping then shipping[Name(f)] else "";
    Address(v(FirstName), v(LastName), v(Address1), v(Address2), v(Zip), v(City))
  }

  /** `required`: every field but `address2`, and `firstName` only when the
      checkout's language is not German. */
  predicate Required(f: Field, isGerman: bool)
  {
    match f
    case FirstName => !isGerman
    case Address2 => false
    case _ => true
  }

  /** A field passes the required-field check: it is optional, or its
      trimmed value is a non-empty (truthy) string. */
  predicate Filled(f: Field, a: Address, isGerman: bool)
  {
    !Required(f, isGerman) || Trim(Get(a, f)) != []
  }

  /** `fields.filter((f) => f.required).every((f) => address[f.name]?.trim())`. */
  function EveryRequiredFilled(fields: seq<Field>, a: Address, isGerman: bool): (ok: bool)
    ensures ok <==> forall i :: 0 <= i < |fields| ==> Filled(fields[i], a, isGerman)
  {
    if fields == [] then true
    else Filled(fields[0], a, isGerman) && EveryRequiredFilled(fields[1..], a, isGerman)
  }

  /** `isFormValid`: every field passes the required-field check. */
  function IsFormValid(a: Address, isGerman: bool): (valid: bool)
    ensures valid <==> forall f :: Filled(f, a, isGerman)
  {
    EveryFieldChecked(a, isGerman);
    EveryRequiredFilled(AllFields, a, isGerman)
  }

  /** Checking the listed fields is checking every field. */
  lemma EveryFieldChecked(a: Address, isGerman: bool)
    ensures EveryRequiredFilled(AllFields, a, isGerman) <==> forall f :: Filled(f, a, isGerman)
  {
    if EveryRequiredFilled(AllFields, a, isGerman) {
      forall f ensures Filled(f, a, isGerman) {
        match f
        case FirstName => assert AllFields[0] == f;
        case LastName => assert AllFields[1] == f;
        case Address1 => assert AllFields[2] == f;
        case Address2 => assert AllFields[3] == f;
        case Zip => assert AllFields[4] == f;
        case City => assert AllFields[5] == f;
      }
    }
  }

  /** Spelled out per field: the form is valid exactly when last name,
      first address line, zip and city — and the first name unless the
      language is German — are not all whitespace. */
  lemma ValidIffNotBlank(a: Address, isGerman: bool)
    ensures IsFormValid(a, isGerman) <==>
      && (!isGerman ==> !AllJsSpace(a.firstName))
      && !AllJsSpace(a.lastName) && !AllJsSpace(a.address1)
      && !AllJsSpace(a.zip) && !AllJsSpace(a.city)
  {
    FilledIffNotBlank(FirstName, a, isGerman);
    FilledIffNotBlank(LastName, a, isGerman);
    FilledIffNotBlank(Address1, a, isGerman);
    FilledIffNotBlank(Address2, a, isGerman);
    FilledIffNotBlank(Zip, a, isGerman);
    FilledIffNotBlank(City, a, isGerman);
    if !IsFormValid(a, isGerman) {
      var f :| !Filled(f, a, isGerman);
      FilledIffNotBlank(f, a, isGerman);
    }
  }

  lemma FilledIffNotBlank(f: Field, a: Address, isGerman: bool)
    ensures Filled(f, a, isGerman) <==> !Required(f, isGerman) || !AllJsSpace(Get(a, f))
  {
    TrimEmptyIffAllSpace(Get(a, f));
  }

  /** A form valid outside German is valid in German. */
  lemma GermanValidityIsWeaker(a: Address)
    ensures IsFormValid(a, false) ==> IsFormValid(a, true)
  {
    forall f ensures Filled(f, a, false) ==> Filled(f, a, true) {
    }
  }

  /** In German the first name never matters. */
  lemma GermanIgnoresFirstName(a: Address, firstName: string)
    ensures IsFormValid(a, true) == IsFormValid(a.(firstName := firstName), true)
  {
    var b := a.(firstName := firstName);
    forall f ensures Filled(f, a, true) == Filled(f, b, true) {
      if f != FirstName {
        assert Get(a, f) == Get(b, f);
      }
    }
  }

  /** The second address line never matters. */
  lemma SecondLineNeverMatters(a: Address, address2: string, isGerman: bool)
    ensures IsFormValid(a, isGerman) == IsFormValid(a.(address2 := address2), isGerman)
  {
    var c := a.(address2 := address2);
    forall f ensures Filled(f, a, isGerman) == Filled(f, c, isGerman) {
      if f != Address2 {
        assert Get(a, f) == Get(c, f);
      }
    }
  }

  /** `ALL_FIELDS.some((f) => address[f.name] !== originalAddress[f.name])`. */
  function AnyDiffers(fields: seq<Field>, a: Address, o: Address): (d: bool)
    ensures d <==> exists i :: 0 <= i < |fields| && Get(a, fields[i]) != Get(o, fields[i])
  {
    if fields == [] then false
    else Get(a, fields[0]) != Get(o, fields[0]) || AnyDiffers(fields[1..], a, o)
  }

  /** `hasChanges`: the form differs from the snapshot exactly when some
      field does. */
  function HasChanges(a: Address, o: Address): (changed: bool)
    ensures changed <==> a != o
  {
    SameOnAllFieldsIsEqual(a, o);
    AnyDiffers(AllFields, a, o)
  }

  lemma SameOnAllFieldsIsEqual(a: Address, o: Address)
    ensures !AnyDiffers(AllFields, a, o) ==> a == o
  {
    if !AnyDiffers(AllFields, a, o) {
      assert AllFields[0] == FirstName && AllFields[1] == LastName && AllFields[2] == Address1;
      assert AllFields[3] == Address2 && AllFields[4] == Zip && AllFields[5] == City;
      assert Get(a, AllFields[0]) == Get(o, AllFields[0]) && Get(a, AllFields[1]) == Get(o, AllFields[1]);
      assert Get(a, AllFields[2]) == Get(o, AllFields[2]) && Get(a, AllFields[3]) == Get(o, AllFields[3]);
      assert Get(a, AllFields[4]) == Get(o, AllFields[4]) && Get(a, AllFields[5]) == Get(o, AllFields[5]);
    }
  }

  /** A freshly opened form has no changes; editing a field to a new value
      creates one, and editing it back to the snapshot's value removes it. */
  lemma EditingBackRestoresNoChanges(o: Address, f: Field, v: string)
    ensures !HasChanges(o, o)
    ensures v != Get(o, f) ==> HasChanges(Set(o, f, v), o)
    ensures !HasChanges(Set(Set(o, f, v), f, Get(o, f)), o)
  {
    var back := Set(Set(o, f, v), f, Get(o, f));
    forall g ensures Get(back, g) == Get(o, g) {
    }
    Extensionality(back, o);
  }

  /** The request body's `address`: every field under its name, trimmed. */
  function Submitted(a: Address): (m: map<string, string>)
    ensures forall f :: Name(f) in m && m[Name(f)] == Trim(Get(a, f))
    ensures forall k :: k in m ==> exists f :: Name(f) == k
  {
    AllFieldsListsEveryFieldOnce();
    assert forall f, g :: Name(f) == Name(g) ==> f == g by {
      forall f, g ensures Name(f) == Name(g) ==> f == g { NameInjective(f, g); }
    }
    map f | f in AllFields :: Name(f) := Trim(Get(a, f))
  }

  /** Submitted values carry no surrounding whitespace, and a valid form
      submits a non-empty value for every required field. */
  lemma SubmittedValuesAreTrimmed(a: Address, isGerman: bool, f: Field)
    ensures Trim(Submitted(a)[Name(f)]) == Submitted(a)[Name(f)]
    ensures IsFormValid(a, isGerman) && Required(f, isGerman) ==> Submitted(a)[Name(f)] != []
  {
    TrimIdempotent(Get(a, f));
  }

  /** The request body and headers both editors POST: the order id, every
      field under its name with surrounding whitespace trimmed, and the
      session token behind "Bearer ". The origin is the browser's. */
  function UpdateRequest(orderId: string, a: Address, sessionToken: string, origin: Option<string>): (req: Api.Request)
    ensures req.orderId == orderId && req.origin == origin
    ensures forall f :: Name(f) in req.address && req.address[Name(f)] == Trim(Get(a, f))
    ensures forall k :: k in req.address ==> exists f :: Name(f) == k
    ensures req.authorization.Some? && Api.BearerPrefix <= req.authorization.value
  {
    Api.Request(origin, Some(Api.BearerPrefix + sessionToken), orderId, Submitted(a))
  }

  /** The backend reads back the session token the editor sent, unless the
      token itself contains "Bearer ". */
  lemma SessionTokenReachesBackend(orderId: string, a: Address, sessionToken: string, origin: Option<string>)
    requires !Contains(sessionToken, Api.BearerPrefix)
    ensures Api.Token(UpdateRequest(orderId, a, sessionToken, origin).authorization) == Some(sessionToken)
  {
    Api.BearerTokenExtracted(sessionToken);
  }
}

=== FILE: api.dfy ===
/** The JSON endpoint the checkout extensions call: CORS headers, the
    bearer session token check, and the mapping of an address update's
    result to an HTTP response. */
module Api {
  import opened Common
  import opened Strings
  import opened Store
  import AddressEditable

  const AllowedOriginPrefix: string := "https://extensions.shopifycdn.com"
  const AllowMethods: string := "POST, OPTIONS"
  const AllowHeaders: string := "Content-Type, Authorization"
  const BearerPrefix: string := "Bearer "

  const MissingTokenMessage: string := "Missing session token"
  const InvalidTokenMessage: string := "Invalid session token"
  const RecordNotFoundMessage: string := "Record not found"

  const StatusOk: int := 200
  const StatusUnauthorized: int := 401
  const StatusNotFound: int := 404
  const StatusUnprocessableEntity: int := 422
  const StatusInternalServerError: int := 500

  /** The three CORS response headers; the origin one may be absent. */
  datatype Cors = Cors(allowOrigin: Option<string>, allowMethods: string, allowHeaders: string)

  /** A JSON response body; a `None` field is a key the body does not have. */
  datatype Body = Body(
    success: bool,
    errors: Option<seq<string>>,
    statusPageUrl: Option<string>,
    retryable: Option<bool>,
    fieldErrors: Option<seq<string>>)

  /** `data.errors?.[0]` when it is a non-empty string (JavaScript truthiness). */
  function FirstError(b: Body): (e: Option<string>)
    ensures e.Some? <==> b.errors.Some? && |b.errors.value| > 0 && b.errors.value[0] != ""
    ensures e.Some? ==> e.value == b.errors.value[0]
  {
    match b.errors
    case Some(es) => if |es| > 0 && es[0] != "" then Some(es[0]) else None
    case None => None
  }

  /** An HTTP response; `body` is `None` when it is not JSON (an empty
      `head` response, or the error page of an unhandled exception), and
      `cors` is `None` when the response carries no CORS headers at all
      (the error page is a new response, built outside the controller's
      filters). */
  datatype Response = Response(status: int, cors: Option<Cors>, body: Option<Body>)

  /** The request headers and parameters the endpoint reads. */
  datatype Request = Request(origin: Option<string>, authorization: Option<string>, orderId: string, address: AddressEditable.Address)

  /** The response and the remote mutations issued while producing it. */
  datatype Handled = Handled(response: Response, calls: seq<RemoteCall>)

  /** `set_cors_headers`: the origin is echoed only when it begins, letters
      compared without regard to case, with the extensions CDN's origin;
      the other two headers are fixed. */
  function CorsHeaders(origin: Option<string>): (h: Cors)
    ensures h.allowOrigin.Some? <==> origin.Some? && StartsWithIgnoringCase(origin.value, AllowedOriginPrefix)
    ensures h.allowOrigin.Some? ==> h.allowOrigin == origin
    ensures h.allowMethods == AllowMethods && h.allowHeaders == AllowHeaders
  {
    var allow := match origin
      case Some(o) => if StartsWithIgnoringCase(o, AllowedOriginPrefix) then Some(o) else None
      case None => None;
    Cors(allow, AllowMethods, AllowHeaders)
  }

  /** The prefix match lets any longer origin through, whatever its case. */
  lemma CorsIsPrefixMatch(suffix: string)
    ensures CorsHeaders(Some(AllowedOriginPrefix + suffix)).allowOrigin == Some(AllowedOriginPrefix + suffix)
    ensures CorsHeaders(Some("https://evil.com")).allowOrigin.None?
    ensures CorsHeaders(None).allowOrigin.None?
  {
    var o := AllowedOriginPrefix + suffix;
    assert forall i :: 0 <= i < |AllowedOriginPrefix| ==> o[i] == AllowedOriginPrefix[i];
    assert LowerAscii("https://evil.com"[9]) != LowerAscii(AllowedOriginPrefix[9]);
  }

  /** `request.headers["Authorization"]&.remove("Bearer ")`. */
  function Token(authorization: Option<string>): Option<string>
  {
    match authorization
    case Some(h) => Some(RemoveAll(h, BearerPrefix))
    case None => None
  }

  /** A header "Bearer t" yields `t` when `t` does not itself contain
      "Bearer "; with no header there is no token. */
  lemma BearerTokenExtracted(t: string)
    requires !Contains(t, BearerPrefix)
    ensures Token(Some(BearerPrefix + t)) == Some(t)
    ensures Token(None).None?
  {
    RemoveAllLeading(BearerPrefix, t);
  }

  /** The session check's verdict: the authenticated shop, or the message
      of the 401 response. */
  datatype Auth = Authenticated(shop: string) | Rejected(message: string)

  /** `verify_session_token`. `decode` stands for the JWT check: the token's
      shop domain, or `None` when the token is invalid. A missing or blank
      token is "Missing session token"; a bad token or a domain with no
      stored shop is "Invalid session token". */
  function VerifySessionToken(db: Db, authorization: Option<string>, decode: string -> Option<string>): (a: Auth)
    ensures a.Rejected? ==> a.message == MissingTokenMessage || a.message == InvalidTokenMessage
    ensures (a.Rejected? && a.message == MissingTokenMessage) <==>
      (Token(authorization).None? || IsBlank(Token(authorization).value))
    ensures a.Authenticated? <==>
      && Token(authorization).Some? && !IsBlank(Token(authorization).value)
      && decode(Token(authorization).value).Some?
      && decode(Token(authorization).value).value in db.shops
    ensures a.Authenticated? ==> a.shop == decode(Token(authorization).value).value && a.shop in db.shops
  {
    match Token(authorization)
    case None => Rejected(MissingTokenMessage)
    case Some(t) =>
      if IsBlank(t) then Rejected(MissingTokenMessage)
      else match decode(t)
        case None => Rejected(InvalidTokenMessage)
        case Some(domain) => if domain in db.shops then Authenticated(domain) else Rejected(InvalidTokenMessage)
  }

  /** `{ success: false, errors: [...] }`. */
  function ErrorBody(errors: seq<string>): (b: Body)
    ensures !b.success && b.errors == Some(errors)
    ensures b.statusPageUrl.None? && b.retryable.None? && b.fieldErrors.None?
  {
    Body(false, Some(errors), None, None, None)
  }

  /** The response for an address-update result, as `create` renders it. */
  function ResultResponse(cors: Cors, res: AddressEditable.AddressUpdateResult): (r: Response)
    ensures r.cors == Some(cors) && r.body.Some?
    ensures r.status == StatusOk <==> res.success
    ensures res.success ==> r == Response(StatusOk, Some(cors), Some(Body(true, None, res.statusPageUrl, None, None)))
    ensures !res.success ==> r == Response(StatusUnprocessableEntity, Some(cors), Some(ErrorBody(res.errors)))
  {
    if res.success then Response(StatusOk, Some(cors), Some(Body(true, None, res.statusPageUrl, None, None)))
    else Response(StatusUnprocessableEntity, Some(cors), Some(ErrorBody(res.errors)))
  }

  /** The status codes `create` can answer with. */
  predicate KnownStatus(status: int)
  {
    status == StatusOk || status == StatusUnauthorized || status == StatusNotFound
    || status == StatusUnprocessableEntity || status == StatusInternalServerError
  }

  /** `create`, after both filters: a rejected token is 401 with its
      message; an order id the shop does not own is 404 "Record not found"
      with no mutation; otherwise the order's own update runs once and its
      result is 200 with the status-page URL or 422 with the errors. An
      exception escaping the update is a 500 without a JSON body or CORS
      headers. The body never carries `retryable` or `fieldErrors`. */
  function Create(db: Db, req: Request, decode: string -> Option<string>,
                  remote: Outcome<AddressEditable.UpdatePayload>): (r: Handled)
    ensures r.response.status != StatusInternalServerError ==> r.response.cors == Some(CorsHeaders(req.origin))
    ensures r.response.status == StatusInternalServerError ==> r.response.cors.None?
    ensures KnownStatus(r.response.status)
    ensures VerifySessionToken(db, req.authorization, decode).Rejected? ==>
      r == Handled(Response(StatusUnauthorized, Some(CorsHeaders(req.origin)),
                            Some(ErrorBody([VerifySessionToken(db, req.authorization, decode).message]))), [])
    ensures r.calls != [] <==>
      && VerifySessionToken(db, req.authorization, decode).Authenticated?
      && AddressEditable.FindOrder(db, VerifySessionToken(db, req.authorization, decode).shop, req.orderId).Some?
    ensures r.calls != [] ==> r.calls == [UpdateOrderAddress(req.orderId, req.address)]
    ensures r.response.status == StatusNotFound ==> r.response.body == Some(ErrorBody([RecordNotFoundMessage]))
    ensures r.response.status == StatusOk <==> r.response.body.Some? && r.response.body.value.success
    ensures r.response.status == StatusInternalServerError <==> r.response.body.None?
    ensures r.response.status == StatusUnprocessableEntity ==>
      r.response.body.value.errors.Some? && |r.response.body.value.errors.value| > 0
    ensures r.response.body.Some? ==> r.response.body.value.retryable.None? && r.response.body.value.fieldErrors.None?
    ensures r.response.status == StatusInternalServerError ==> remote.Raised? || remote.value.order.None?
    ensures var a := VerifySessionToken(db, req.authorization, decode);
      a.Authenticated? && AddressEditable.FindOrder(db, a.shop, req.orderId).None? ==>
        r == Handled(Response(StatusNotFound, Some(CorsHeaders(req.origin)), Some(ErrorBody([RecordNotFoundMessage]))), [])
    ensures var a := VerifySessionToken(db, req.authorization, decode);
      var run := AddressEditable.UpdateOrderShippingAddress(req.orderId, req.address, remote);
      a.Authenticated? && AddressEditable.FindOrder(db, a.shop, req.orderId).Some? && run.outcome.Done? ==>
        r.response == ResultResponse(CorsHeaders(req.origin), run.outcome.value)
  {
    var cors := CorsHeaders(req.origin);
    match VerifySessionToken(db, req.authorization, decode)
    case Rejected(message) => Handled(Response(StatusUnauthorized, Some(cors), Some(ErrorBody([message]))), [])
    case Authenticated(shop) =>
      match AddressEditable.FindOrder(db, shop, req.orderId)
      case None => Handled(Response(StatusNotFound, Some(cors), Some(ErrorBody([RecordNotFoundMessage]))), [])
      case Some(_) =>
        var run := AddressEditable.UpdateOrderShippingAddress(req.orderId, req.address, remote);
        match run.outcome
        case Done(res) => Handled(ResultResponse(cors, res), run.calls)
        case Raised(_) => Handled(Response(StatusInternalServerError, None, None), run.calls)
  }

  /** `options`: no token check, 200 with the CORS headers and no body. */
  function Options(req: Request): (r: Response)
    ensures r.status == StatusOk && r.body.None?
    ensures r.cors.Some? && (r.cors.value.allowOrigin.Some? <==> req.origin.Some? && StartsWithIgnoringCase(req.origin.value, AllowedOriginPrefix))
  {
    Response(StatusOk, Some(CorsHeaders(req.origin)), None)
  }

  /** As written, a user error from the mutation (the not-yet-visible
      order among them) reaches the client as a 500 without a JSON body. */
  lemma UserErrorIsServerError(db: Db, req: Request, decode: string -> Option<string>, message: string)
    requires VerifySessionToken(db, req.authorization, decode).Authenticated?
    requires AddressEditable.FindOrder(db, VerifySessionToken(db, req.authorization, decode).shop, req.orderId).Some?
    ensures Create(db, req, decode, Raised(UserError(message))).response.status == StatusInternalServerError
    ensures Create(db, req, decode, Raised(UserError(message))).response.body.None?
    ensures Create(db, req, decode, Raised(UserError(message))).response.cors.None?
  {
  }

  /** The response for a classified result: as `create` renders it, with
      the `retryable` flag added to a failure. */
  function ClassifiedResponse(cors: Cors, c: AddressEditable.ClassifiedResult): (r: Response)
    ensures r.status == StatusOk <==> c.result.success
    ensures r.body.Some? && (r.body.value.retryable == Some(true) <==> !c.result.success && c.retryable)
  {
    var base := ResultResponse(cors, c.result);
    if c.result.success then base
    else base.(body := Some(base.body.value.(retryable := Some(c.retryable))))
  }

  /** `create` calling the corrected update: the shop's order is still
      required, an expired window is a 422 "Editing window has expired"
      with no mutation, and a not-yet-visible order is a 422 flagged
      retryable instead of a 500. */
  function CreateCorrected(db: Db, req: Request, decode: string -> Option<string>,
                           remote: Outcome<AddressEditable.UpdatePayload>, now: Time): (r: Handled)
    ensures r.response.status != StatusInternalServerError ==> r.response.cors == Some(CorsHeaders(req.origin))
    ensures r.response.status == StatusInternalServerError ==> r.response.cors.None?
    ensures KnownStatus(r.response.status)
    ensures VerifySessionToken(db, req.authorization, decode).Rejected? ==> r.calls == [] && r.response.status == StatusUnauthorized
    ensures |r.calls| <= 1
    ensures r.response.body.Some? && r.response.body.value.retryable == Some(true) ==>
      r.response.status == StatusUnprocessableEntity && remote.Raised? && remote.error.UserError?
    ensures r.response.status == StatusInternalServerError ==> remote.Raised? || remote.value.order.None?
    ensures r.response.status == StatusInternalServerError ==> !remote.Raised? || !remote.error.UserError?
  {
    var cors := CorsHeaders(req.origin);
    match VerifySessionToken(db, req.authorization, decode)
    case Rejected(message) => Handled(Response(StatusUnauthorized, Some(cors), Some(ErrorBody([message]))), [])
    case Authenticated(shop) =>
      match AddressEditable.FindOrder(db, shop, req.orderId)
      case None => Handled(Response(StatusNotFound, Some(cors), Some(ErrorBody([RecordNotFoundMessage]))), [])
      case Some(_) =>
        var run := AddressEditable.UpdateShippingAddressCorrected(db, shop, req.orderId, req.address, remote, now);
        match run.outcome
        case Done(c) => Handled(ClassifiedResponse(cors, c), run.calls)
        case Raised(_) => Handled(Response(StatusInternalServerError, None, None), run.calls)
  }

  /** With the corrected update, the not-yet-visible order's user error
      becomes a retryable 422 with no banner error. */
  lemma CorrectedSignalsRetry(db: Db, req: Request, decode: string -> Option<string>, now: Time)
    requires VerifySessionToken(db, req.authorization, decode).Authenticated?
    requires AddressEditable.FindOrder(db, VerifySessionToken(db, req.authorization, decode).shop, req.orderId).Some?
    requires !AddressEditable.StoredOrderExpired(db, VerifySessionToken(db, req.authorization, decode).shop, req.orderId, now)
    ensures var r := CreateCorrected(db, req, decode, Raised(UserError(AddressEditable.OrderMissingError)), now).response;
      r == Response(StatusUnprocessableEntity, Some(CorsHeaders(req.origin)), Some(Body(false, Some([]), None, Some(true), None)))
  {
    AddressEditable.OrderMissingIsRetryable(req.orderId, req.address);
  }
}

=== FILE: common.dfy ===
/** Shared vocabulary of the model: optional values, the exceptions the
    Rails code raises or rescues, the outbound GraphQL calls, and the
    background jobs it enqueues. Time is an integer count of seconds. */
module Common {

  datatype Option<T> = None | Some(value: T)

  /** Seconds since the epoch; `Time.current` and remote timestamps alike. */
  type Time = int

  const MinuteSeconds: int := 60
  const HourSeconds: int := 3600

  /** The exceptions that matter to the control flow of the core.
      The first three are what the GraphQL client raises; the rest are
      raised by ActiveRecord or by calling a method on `nil`. */
  datatype Exception =
    | UserError(message: string)
    | TooManyRequests
    | ServerError
    | RecordNotFound
    | RecordInvalid
    | NoMethodError

  /** A value, or the exception raised while computing it. */
  datatype Outcome<T> = Done(value: T) | Raised(error: Exception)

  /** An outbound GraphQL operation, recorded as data. */
  datatype RemoteCall =
    | HoldFulfillmentOrder(fulfillmentOrderId: string)
    | GetFulfillmentOrder(fulfillmentOrderId: string)
    | ReleaseFulfillmentOrderHold(fulfillmentOrderId: string)
    | UpdateOrderAddress(orderId: string, address: map<string, string>)

  /** A background job as it is enqueued: what it will do and, for
      delayed jobs, the time it becomes due. */
  datatype Job =
    | ReleaseHold(fulfillmentOrderId: string, runAt: Time)
    | PersistFulfillmentOrder(shopDomain: string, payloadId: string)
    | ShopRedact(shopDomain: string, requestedAt: Time, runAt: Time)

  /** What the job runner does with a job after one execution. */
  datatype Disposition = Completed | RetryScheduled | Discarded | Failed(error: Exception)
}

=== FILE: compliance.dfy ===
/** The mandatory compliance webhooks: a customer data request, a customer
    redaction and a shop redaction, each answered with 204 No Content. */
module Compliance {
  import opened Common
  import opened Strings
  import opened Store

  const NoContent: int := 204
  const OrderGidPrefix: string := "gid://shopify/Order/"

  /** The shop redaction runs this long after the webhook arrives. */
  const ShopRedactDelaySeconds: int := 48 * HourSeconds

  const DataRequestTopic: string := "customers/data_request"
  const CustomerRedactTopic: string := "customers/redact"
  const ShopRedactTopic: string := "shop/redact"

  /** A numeric-ids field of the payload as `Array(…)` sees it: absent
      (nil, giving no ids), a single id, or a list of ids. */
  datatype IdsField = Absent | Single(id: nat) | List(ids: seq<nat>)

  /** A verified compliance webhook: its topic, its shop domain and the
      order-id fields of its body. */
  datatype Webhook = Webhook(topic: string, shop: string, ordersRequested: IdsField, ordersToRedact: IdsField)

  /** What receiving a webhook did: the store afterwards, the jobs
      enqueued, the order ids a data request reported (nil when it
      reported nothing), and the HTTP status. */
  datatype Received = Received(db: Db, jobs: seq<Job>, reported: Option<set<string>>, status: int)

  /** `"gid://shopify/Order/#{id}"`. */
  function OrderGid(n: nat): (gid: string)
    ensures OrderGidPrefix <= gid
    ensures gid[|OrderGidPrefix|..] == NatToString(n)
  {
    OrderGidPrefix + NatToString(n)
  }

  /** Different numbers give different order ids. */
  lemma OrderGidInjective(a: nat, b: nat)
    requires OrderGid(a) == OrderGid(b)
    ensures a == b
  {
    assert OrderGid(a)[|OrderGidPrefix|..] == OrderGid(b)[|OrderGidPrefix|..];
    NatToStringInjective(a, b);
  }

  /** `Array(numeric_ids)`. */
  function AsArray(f: IdsField): (ids: seq<nat>)
    ensures f.Absent? ==> ids == []
    ensures f.Single? ==> ids == [f.id]
    ensures f.List? ==> ids == f.ids
  {
    match f
    case Absent => []
    case Single(n) => [n]
    case List(ns) => ns
  }

  /** `find_orders`: the shop's orders whose `shopify_id` is the order id of
      one of the given numbers; orders of other shops never match. */
  function FindOrders(db: Db, shop: string, f: IdsField): (r: set<string>)
    ensures forall k :: k in r <==>
      && k in db.orders && db.orders[k].shop == shop
      && exists i | 0 <= i < |AsArray(f)| :: OrderGid(AsArray(f)[i]) == k
  {
    var ids := AsArray(f);
    set k | k in db.orders && db.orders[k].shop == shop && exists i | 0 <= i < |ids| :: OrderGid(ids[i]) == k
  }

  /** Order `n` of the shop is found exactly when `n` is among the
      requested numbers. */
  lemma FindOrdersByNumber(db: Db, shop: string, f: IdsField, n: nat)
    requires OrderGid(n) in db.orders && db.orders[OrderGid(n)].shop == shop
    ensures OrderGid(n) in FindOrders(db, shop, f) <==> n in AsArray(f)
  {
    var ids := AsArray(f);
    if OrderGid(n) in FindOrders(db, shop, f) {
      var i :| 0 <= i < |ids| && OrderGid(ids[i]) == OrderGid(n);
      OrderGidInjective(ids[i], n);
    } else {
      forall i | 0 <= i < |ids| ensures ids[i] != n {
        assert OrderGid(ids[i]) != OrderGid(n);
      }
    }
  }

  /** `handle_data_request`: read-only; reports the requested orders of a
      known shop and nothing for an unknown one. */
  function DataRequest(db: Db, w: Webhook): (reported: Option<set<string>>)
    ensures reported.Some? <==> w.shop in db.shops
    ensures reported.Some? ==> reported.value == FindOrders(db, w.shop, w.ordersRequested)
    ensures reported.Some? ==> forall k :: k in reported.value ==> k in db.orders && db.orders[k].shop == w.shop
  {
    if w.shop in db.shops then Some(FindOrders(db, w.shop, w.ordersRequested)) else None
  }

  /** `handle_customer_redact`: for a known shop, destroy exactly its
      requested orders, cascading to their fulfillment orders; orders of
      other shops and unrequested orders stay as they were. */
  function CustomerRedact(db: Db, w: Webhook): (r: Db)
    ensures w.shop !in db.shops ==> r == db
    ensures r.shops == db.shops && r.settings == db.settings
    ensures forall k :: k in r.orders <==>
      k in db.orders && (w.shop !in db.shops || k !in FindOrders(db, w.shop, w.ordersToRedact))
    ensures forall k :: k in r.orders ==> r.orders[k] == db.orders[k]
    ensures forall k :: k in db.orders && db.orders[k].shop != w.shop ==> k in r.orders
    ensures forall k :: k in r.fulfillmentOrders ==> k in db.fulfillmentOrders && r.fulfillmentOrders[k] == db.fulfillmentOrders[k]
    ensures w.shop in db.shops ==> forall k :: k in db.fulfillmentOrders ==>
      (k in r.fulfillmentOrders <==>
        db.fulfillmentOrders[k].order.None? || db.fulfillmentOrders[k].order.value !in FindOrders(db, w.shop, w.ordersToRedact))
  {
    if w.shop in db.shops then DestroyOrders(db, FindOrders(db, w.shop, w.ordersToRedact)) else db
  }

  /** Destroying no orders changes nothing. */
  lemma DestroyNothing(db: Db)
    ensures DestroyOrders(db, {}) == db
  {
    assert WithoutOrders(db.fulfillmentOrders, {}) == db.fulfillmentOrders;
  }

  /** Redacting a customer twice is redacting once, and the store keeps its
      constraints. */
  lemma CustomerRedactIdempotent(db: Db, w: Webhook)
    ensures CustomerRedact(CustomerRedact(db, w), w) == CustomerRedact(db, w)
    ensures Valid(db) ==> Valid(CustomerRedact(db, w))
  {
    var r := CustomerRedact(db, w);
    if w.shop in db.shops {
      assert FindOrders(r, w.shop, w.ordersToRedact) == {};
      DestroyNothing(r);
      if Valid(db) {
        DestroyOrdersPreservesValid(db, FindOrders(db, w.shop, w.ordersToRedact));
      }
    }
  }

  /** Order `n` of the shop survives a redaction exactly when `n` is not
      among the numbers to redact. */
  lemma CustomerRedactByNumber(db: Db, w: Webhook, n: nat)
    requires w.shop in db.shops
    requires OrderGid(n) in db.orders && db.orders[OrderGid(n)].shop == w.shop
    ensures OrderGid(n) in CustomerRedact(db, w).orders <==> n !in AsArray(w.ordersToRedact)
  {
    FindOrdersByNumber(db, w.shop, w.ordersToRedact, n);
  }

  /** `receive`: dispatch on the topic and always answer 204; only a
      customer redaction writes to the store, and only a shop redaction
      enqueues a job, due 48 hours later, carrying the receipt time. */
  function Receive(db: Db, w: Webhook, now: Time): (r: Received)
    ensures r.status == NoContent
    ensures w.topic != CustomerRedactTopic ==> r.db == db
    ensures w.topic == ShopRedactTopic <==> r.jobs != []
    ensures w.topic == ShopRedactTopic ==> r.jobs == [ShopRedact(w.shop, now, now + 48 * 3600)]
    ensures r.reported.Some? ==> w.topic == DataRequestTopic && w.shop in db.shops
    ensures w.topic == DataRequestTopic ==> r.reported == DataRequest(db, w)
    ensures w.topic == CustomerRedactTopic ==> r.db == CustomerRedact(db, w)
  {
    if w.topic == DataRequestTopic then Received(db, [], DataRequest(db, w), NoContent)
    else if w.topic == CustomerRedactTopic then Received(CustomerRedact(db, w), [], None, NoContent)
    else if w.topic == ShopRedactTopic then
      Received(db, [ShopRedact(w.shop, now, now + ShopRedactDelaySeconds)], None, NoContent)
    else Received(db, [], None, NoContent)
  }
}

=== FILE: editable.dfy ===
/** The address-edit window of an order: it opens when the order is created
    remotely and closes after the shop's configured hold duration. */
module Editable {
  import opened Common
  import opened Store

  /** The close time of a window opened at `createdAt` and lasting
      `holdMinutes` minutes. */
  function ClosesAt(createdAt: Time, holdMinutes: int): Time
  {
    createdAt + holdMinutes * MinuteSeconds
  }

  /** The window counts as expired from its close time on, inclusive. */
  predicate ExpiredAt(closesAt: Time, now: Time)
  {
    closesAt <= now
  }

  /** `edit_window_closes_at`: reading the nullable `shopify_created_at`
      and the shop's settings row; a nil in either raises. */
  function EditWindowClosesAt(db: Db, order: Order): (r: Outcome<Time>)
    ensures r.Done? <==> order.shopifyCreatedAt.Some? && order.shop in db.shops && order.shop in db.settings
    ensures r.Raised? ==> r.error == NoMethodError
    ensures r.Done? ==>
      r.value - order.shopifyCreatedAt.value == db.settings[order.shop].holdDurationMinutes * 60
  {
    if order.shopifyCreatedAt.None? || order.shop !in db.shops || order.shop !in db.settings then
      Raised(NoMethodError)
    else
      Done(ClosesAt(order.shopifyCreatedAt.value, db.settings[order.shop].holdDurationMinutes))
  }

  /** `edit_window_expired?` at time `now`. */
  function EditWindowExpired(db: Db, order: Order, now: Time): (r: Outcome<bool>)
    ensures r.Done? <==> EditWindowClosesAt(db, order).Done?
    ensures r.Raised? ==> r.error == NoMethodError
    ensures r.Done? ==>
      (r.value <==> order.shopifyCreatedAt.value + db.settings[order.shop].holdDurationMinutes * 60 <= now)
  {
    match EditWindowClosesAt(db, order)
    case Done(t) => Done(ExpiredAt(t, now))
    case Raised(e) => Raised(e)
  }

  /** Exactly at the close time the window is already expired; one second
      earlier it is open. */
  lemma BoundaryCountsAsExpired(db: Db, order: Order)
    requires EditWindowClosesAt(db, order).Done?
    ensures EditWindowExpired(db, order, EditWindowClosesAt(db, order).value) == Done(true)
    ensures EditWindowExpired(db, order, EditWindowClosesAt(db, order).value - 1) == Done(false)
  {
  }

  /** Once expired, the window stays expired. */
  lemma ExpiryIsMonotoneInTime(closesAt: Time, now: Time, later: Time)
    requires ExpiredAt(closesAt, now)
    requires now <= later
    ensures ExpiredAt(closesAt, later)
  {
  }

  /** A longer hold never turns an open window into an expired one. */
  lemma LongerHoldKeepsWindowOpen(createdAt: Time, minutes: int, longer: int, now: Time)
    requires minutes <= longer
    requires !ExpiredAt(ClosesAt(createdAt, minutes), now)
    ensures !ExpiredAt(ClosesAt(createdAt, longer), now)
  {
  }

  /** With a 30-minute setting, an order created 45 minutes ago is expired
      and one created 10 minutes ago is not. */
  lemma ThirtyMinuteExamples(db: Db, shop: string, now: Time)
    requires shop in db.shops && shop in db.settings
    requires db.settings[shop].holdDurationMinutes == 30
    ensures EditWindowExpired(db, Order(shop, Some(now - 45 * 60)), now) == Done(true)
    ensures EditWindowExpired(db, Order(shop, Some(now - 10 * 60)), now) == Done(false)
  {
  }
}

=== FILE: fulfillment_order.dfy ===
/** The fulfillment-order hold lifecycle: on a routing-complete event the
    fulfillment order is held remotely (or its persistence deferred), the
    local record is upserted by `shopify_id`, and a release is scheduled. */
module FulfillmentOrders {
  import opened Common
  import opened Strings
  import opened Store
  import Shops
  import Editable

  /** The release job is scheduled this long after the remote creation time. */
  const ReleaseDelaySeconds: int := 30 * MinuteSeconds

  /** The fields the hold mutation and the fetch query return; `createdAt`
      is the parsed `Time` and `orderId` the owning order's `shopify_id`. */
  datatype RemoteFulfillmentOrder = RemoteFulfillmentOrder(status: string, createdAt: Time, orderId: string)

  /** What handling one event did: the store afterwards, the remote calls
      issued, the jobs enqueued, and nil or the exception that escaped. */
  datatype Handled = Handled(db: Db, calls: seq<RemoteCall>, jobs: seq<Job>, outcome: Outcome<()>)

  // ---------------------------------------------------------------------
  // Validations
  // ---------------------------------------------------------------------

  /** The record's validations as written: `shopify_id` and `status`
      present, and both `belongs_to` targets existing — `belongs_to :order`
      is not marked optional, so the order is required too. */
  predicate RecordValid(db: Db, id: string, fo: FulfillmentOrder)
  {
    && !IsBlank(id)
    && !IsBlank(fo.status)
    && fo.shop in db.shops
    && fo.order.Some? && fo.order.value in db.orders
  }

  /** The validations the schema (nullable `order_id`) and the record's
      tests call for: the order link is optional. */
  predicate RecordValidOptionalOrder(db: Db, id: string, fo: FulfillmentOrder)
  {
    && !IsBlank(id)
    && !IsBlank(fo.status)
    && fo.shop in db.shops
    && (fo.order.Some? ==> fo.order.value in db.orders)
  }

  /** As written, a record without an order never validates. */
  lemma OrderlessRecordRejected(db: Db, id: string, fo: FulfillmentOrder)
    requires fo.order.None?
    ensures !RecordValid(db, id, fo)
  {
  }

  /** With the link optional, a record with an id, a status and an
      existing shop validates without an order, and every record valid
      as written stays valid. */
  lemma OrderlessRecordAccepted(db: Db, id: string, fo: FulfillmentOrder)
    requires !IsBlank(id) && !IsBlank(fo.status) && fo.shop in db.shops
    ensures fo.order.None? ==> RecordValidOptionalOrder(db, id, fo)
    ensures RecordValid(db, id, fo) ==> RecordValidOptionalOrder(db, id, fo)
  {
  }

  /** `save!`: the validations, with `shopify_id` uniqueness checked
      against every stored record when the record is new. */
  function Save(db: Db, id: string, fo: FulfillmentOrder, isNew: bool): (r: Step<FulfillmentOrder>)
    ensures r.outcome.Done? <==> RecordValid(db, id, fo) && (isNew ==> id !in db.fulfillmentOrders)
    ensures r.outcome.Done? ==> r.db == db.(fulfillmentOrders := db.fulfillmentOrders[id := fo]) && r.outcome.value == fo
    ensures r.outcome.Raised? ==> r.db == db && r.outcome.error == RecordInvalid
  {
    if isNew && id in db.fulfillmentOrders then Step(db, Raised(RecordInvalid))
    else if !RecordValid(db, id, fo) then Step(db, Raised(RecordInvalid))
    else Step(db.(fulfillmentOrders := db.fulfillmentOrders[id := fo]), Done(fo))
  }

  // ---------------------------------------------------------------------
  // persist!
  // ---------------------------------------------------------------------

  /** `shop.orders.find_or_create_by!(shopify_id:)`. The lookup is scoped to
      the shop while the uniqueness validation is global, so an id stored
      under another shop raises. `stamp`, when given, fills in a missing
      `shopify_created_at`; the code as written never passes one. */
  function FindOrCreateOrder(db: Db, shop: string, id: string, stamp: Option<Time>): (r: Step<()>)
    requires shop in db.shops
    ensures r.db.shops == db.shops && r.db.settings == db.settings && r.db.fulfillmentOrders == db.fulfillmentOrders
    ensures r.db.orders - {id} == db.orders - {id}
    ensures r.outcome.Done? <==> (id in db.orders && db.orders[id].shop == shop) || (id !in db.orders && !IsBlank(id))
    ensures r.outcome.Done? ==> id in r.db.orders && r.db.orders[id].shop == shop
    ensures r.outcome.Raised? ==> r.db == db && r.outcome.error == RecordInvalid
    ensures stamp.None? ==> (id in db.orders ==> r.db == db)
    ensures stamp.None? && id !in db.orders && r.outcome.Done? ==> r.db.orders[id].shopifyCreatedAt.None?
  {
    if id in db.orders && db.orders[id].shop == shop then
      var o := db.orders[id];
      if stamp.Some? && o.shopifyCreatedAt.None? then
        Step(db.(orders := db.orders[id := o.(shopifyCreatedAt := stamp)]), Done(()))
      else Step(db, Done(()))
    else if IsBlank(id) || id in db.orders then Step(db, Raised(RecordInvalid))
    else Step(db.(orders := db.orders[id := Order(shop, stamp)]), Done(()))
  }

  /** The shop's stored fulfillment order under `id`, if any. */
  function FindInShop(db: Db, shop: string, id: string): (r: Option<FulfillmentOrder>)
    ensures r.Some? <==> id in db.fulfillmentOrders && db.fulfillmentOrders[id].shop == shop
    ensures r.Some? ==> r.value == db.fulfillmentOrders[id]
  {
    if id in db.fulfillmentOrders && db.fulfillmentOrders[id].shop == shop then Some(db.fulfillmentOrders[id]) else None
  }

  /** `value` when one is supplied, else `prior`. */
  function Overwrite(prior: Option<Time>, value: Option<Time>): Option<Time>
  {
    if value.Some? then value else prior
  }

  /** The conditions under which `persist!` completes. */
  predicate PersistSucceeds(db: Db, shop: string, id: string, orderId: string, status: string)
  {
    && ((orderId in db.orders && db.orders[orderId].shop == shop) || (orderId !in db.orders && !IsBlank(orderId)))
    && (id !in db.fulfillmentOrders || db.fulfillmentOrders[id].shop == shop)
    && !IsBlank(id)
    && !IsBlank(status)
  }

  function PersistWith(db: Db, shop: string, id: string, orderId: string, status: string,
                       heldAt: Option<Time>, createdAt: Option<Time>, stampOrder: bool): Step<FulfillmentOrder>
    requires shop in db.shops
  {
    var s1 := FindOrCreateOrder(db, shop, orderId, if stampOrder then createdAt else None);
    if s1.outcome.Raised? then Step(s1.db, Raised(s1.outcome.error))
    else
      var existing := FindInShop(s1.db, shop, id);
      var base := match existing
        case Some(f) => f
        case None => FulfillmentOrder(shop, None, "", None, None);
      var fo := base.(order := Some(orderId), status := status,
                      heldAt := Overwrite(base.heldAt, heldAt),
                      shopifyCreatedAt := Overwrite(base.shopifyCreatedAt, createdAt));
      Save(s1.db, id, fo, existing.None?)
  }

  /** `persist!`: find-or-create the order, find-or-initialize the shop's
      fulfillment order by `shopify_id`, link it to the order, set its
      status, overwrite `held_at` and `shopify_created_at` only when given,
      and save. The order is committed even when the save then fails.
      Nothing else in the store changes. */
  function Persist(db: Db, shop: string, id: string, orderId: string, status: string,
                   heldAt: Option<Time>, createdAt: Option<Time>): (r: Step<FulfillmentOrder>)
    requires shop in db.shops
    ensures r.db.shops == db.shops && r.db.settings == db.settings
    ensures r.db.orders - {orderId} == db.orders - {orderId}
    ensures orderId in db.orders ==> r.db.orders == db.orders
    ensures r.db.fulfillmentOrders - {id} == db.fulfillmentOrders - {id}
    ensures r.outcome.Done? <==> PersistSucceeds(db, shop, id, orderId, status)
    ensures r.outcome.Raised? ==> r.outcome.error == RecordInvalid && r.db.fulfillmentOrders == db.fulfillmentOrders
    ensures r.outcome.Done? ==>
      && orderId in r.db.orders && r.db.orders[orderId].shop == shop
      && id in r.db.fulfillmentOrders && r.db.fulfillmentOrders[id] == r.outcome.value
      && r.outcome.value.shop == shop
      && r.outcome.value.order == Some(orderId)
      && r.outcome.value.status == status
    ensures r.outcome.Done? ==>
      var prior := if id in db.fulfillmentOrders then db.fulfillmentOrders[id] else FulfillmentOrder(shop, None, "", None, None);
      && r.outcome.value.heldAt == Overwrite(prior.heldAt, heldAt)
      && r.outcome.value.shopifyCreatedAt == Overwrite(prior.shopifyCreatedAt, createdAt)
    ensures r.outcome.Done? && orderId !in db.orders ==> r.db.orders[orderId].shopifyCreatedAt.None?
  {
    PersistWith(db, shop, id, orderId, status, heldAt, createdAt, false)
  }

  /** Running `persist!` again with the same arguments changes nothing:
      still one order and one fulfillment order for those ids. */
  lemma PersistIdempotent(db: Db, shop: string, id: string, orderId: string, status: string,
                          heldAt: Option<Time>, createdAt: Option<Time>)
    requires shop in db.shops
    requires Persist(db, shop, id, orderId, status, heldAt, createdAt).outcome.Done?
    ensures var r := Persist(db, shop, id, orderId, status, heldAt, createdAt);
      Persist(r.db, shop, id, orderId, status, heldAt, createdAt) == r
  {
    var r := Persist(db, shop, id, orderId, status, heldAt, createdAt);
    var s1 := FindOrCreateOrder(db, shop, orderId, None);
    assert s1.outcome.Done?;
    assert r.db == s1.db.(fulfillmentOrders := s1.db.fulfillmentOrders[id := r.outcome.value]);
    var r2 := Persist(r.db, shop, id, orderId, status, heldAt, createdAt);
    assert FindOrCreateOrder(r.db, shop, orderId, None) == Step(r.db, Done(()));
    var fo := r.outcome.value;
    assert FindInShop(r.db, shop, id) == Some(fo);
    var again := fo.(order := Some(orderId), status := status,
                     heldAt := Overwrite(fo.heldAt, heldAt),
                     shopifyCreatedAt := Overwrite(fo.shopifyCreatedAt, createdAt));
    assert again == fo;
    assert r.db.fulfillmentOrders[id := fo] == r.db.fulfillmentOrders;
  }

  /** `persist!` keeps the store's constraints. */
  lemma PersistPreservesValid(db: Db, shop: string, id: string, orderId: string, status: string,
                              heldAt: Option<Time>, createdAt: Option<Time>)
    requires Valid(db)
    requires shop in db.shops
    ensures Valid(Persist(db, shop, id, orderId, status, heldAt, createdAt).db)
  {
    var r := Persist(db, shop, id, orderId, status, heldAt, createdAt);
    var s1 := FindOrCreateOrder(db, shop, orderId, None);
    assert s1.db.orders.Keys >= db.orders.Keys;
    assert Valid(s1.db) by {
      forall k | k in s1.db.fulfillmentOrders ensures FulfillmentOrderRowValid(s1.db, k) {
        assert FulfillmentOrderRowValid(db, k);
      }
    }
    forall k | k in r.db.fulfillmentOrders
      ensures FulfillmentOrderRowValid(r.db, k)
    {
      if k != id || r.outcome.Raised? {
        assert FulfillmentOrderRowValid(s1.db, k);
      }
    }
  }

  /** The variant of `persist!` that also records the remote creation time
      on a newly created order (or one still missing it). */
  function PersistStampingOrder(db: Db, shop: string, id: string, orderId: string, status: string,
                                heldAt: Option<Time>, createdAt: Option<Time>): (r: Step<FulfillmentOrder>)
    requires shop in db.shops
    ensures r.outcome.Done? <==> PersistSucceeds(db, shop, id, orderId, status)
    ensures r.db.orders - {orderId} == db.orders - {orderId}
    ensures r.outcome.Done? ==> orderId in r.db.orders && r.db.orders[orderId].shop == shop
    ensures r.outcome.Done? && createdAt.Some? ==>
      && r.db.orders[orderId].shopifyCreatedAt.Some?
      && (orderId !in db.orders || db.orders[orderId].shopifyCreatedAt.None? ==>
            r.db.orders[orderId].shopifyCreatedAt == createdAt)
    ensures r.outcome.Done? && orderId in db.orders && db.orders[orderId].shopifyCreatedAt.Some? ==>
      r.db.orders[orderId] == db.orders[orderId]
  {
    PersistWith(db, shop, id, orderId, status, heldAt, createdAt, true)
  }

  /** As written, an order first seen through `persist!` has no creation
      time, so asking whether its edit window expired raises. */
  lemma NewOrderHasNoEditWindow(db: Db, shop: string, id: string, orderId: string, status: string,
                                heldAt: Option<Time>, createdAt: Option<Time>)
    requires shop in db.shops
    requires orderId !in db.orders
    requires PersistSucceeds(db, shop, id, orderId, status)
    ensures var r := Persist(db, shop, id, orderId, status, heldAt, createdAt);
      forall now :: Editable.EditWindowExpired(r.db, r.db.orders[orderId], now) == Raised(NoMethodError)
  {
  }

  /** When the creation time is recorded, the new order's edit window is
      defined (given the shop has settings) and closes the configured
      duration after that time. */
  lemma StampedOrderHasEditWindow(db: Db, shop: string, id: string, orderId: string, status: string,
                                  heldAt: Option<Time>, createdAt: Time)
    requires shop in db.shops && shop in db.settings
    requires orderId !in db.orders
    requires PersistSucceeds(db, shop, id, orderId, status)
    ensures var r := PersistStampingOrder(db, shop, id, orderId, status, heldAt, Some(createdAt));
      Editable.EditWindowClosesAt(r.db, r.db.orders[orderId])
        == Done(Editable.ClosesAt(createdAt, db.settings[shop].holdDurationMinutes))
  {
    var r := PersistStampingOrder(db, shop, id, orderId, status, heldAt, Some(createdAt));
    assert r.db.settings == db.settings && r.db.shops == db.shops;
  }

  // ---------------------------------------------------------------------
  // Hold and release scheduling
  // ---------------------------------------------------------------------

  /** The release time as written: thirty minutes after the remote
      creation time, whatever the shop's hold duration. */
  function ReleaseAt(createdAt: Time): (t: Time)
    ensures t - createdAt == 1800
  {
    createdAt + ReleaseDelaySeconds
  }

  /** The release time following the shop's configured hold duration. */
  function ReleaseAtForShop(db: Db, shop: string, createdAt: Time): (r: Outcome<Time>)
    ensures r.Done? <==> shop in db.settings
    ensures r.Done? ==> r.value == Editable.ClosesAt(createdAt, db.settings[shop].holdDurationMinutes)
  {
    if shop in db.settings then Done(createdAt + db.settings[shop].holdDurationMinutes * MinuteSeconds)
    else Raised(NoMethodError)
  }

  /** As written, for any setting longer than thirty minutes the hold is
      released while an order created at the same moment is still editable. */
  lemma HardCodedReleaseBeforeWindowCloses(createdAt: Time, holdMinutes: int)
    requires holdMinutes > 30
    ensures !Editable.ExpiredAt(Editable.ClosesAt(createdAt, holdMinutes), ReleaseAt(createdAt))
  {
  }

  /** Following the setting, the release is due exactly when the edit
      window of an order created at the same moment closes. */
  lemma ShopReleaseMatchesWindow(db: Db, shop: string, createdAt: Time)
    requires shop in db.settings
    ensures var t := ReleaseAtForShop(db, shop, createdAt).value;
      && Editable.ExpiredAt(Editable.ClosesAt(createdAt, db.settings[shop].holdDurationMinutes), t)
      && !Editable.ExpiredAt(Editable.ClosesAt(createdAt, db.settings[shop].holdDurationMinutes), t - 1)
  {
  }

  /** `hold_immediately_and_persist!`: place the hold remotely, persist the
      record with `held_at = now` and the remote creation time, then
      schedule its release. An exception at any step stops the rest. */
  function HoldImmediatelyAndPersist(db: Db, shop: string, payloadId: string, now: Time,
                                     remote: Outcome<RemoteFulfillmentOrder>): (r: Handled)
    requires shop in db.shops
    ensures r.calls == [HoldFulfillmentOrder(payloadId)]
    ensures remote.Raised? ==> r.db == db && r.jobs == [] && r.outcome == Raised(remote.error)
    ensures remote.Done? ==>
      (r.outcome.Done? <==> PersistSucceeds(db, shop, payloadId, remote.value.orderId, remote.value.status))
    ensures r.outcome.Raised? ==> r.jobs == []
    ensures r.outcome.Done? ==>
      && remote.Done?
      && r.jobs == [ReleaseHold(payloadId, ReleaseAt(remote.value.createdAt))]
      && payloadId in r.db.fulfillmentOrders
      && r.db.fulfillmentOrders[payloadId].heldAt == Some(now)
      && r.db.fulfillmentOrders[payloadId].shopifyCreatedAt == Some(remote.value.createdAt)
      && r.db.fulfillmentOrders[payloadId].status == remote.value.status
  {
    match remote
    case Raised(e) => Handled(db, [HoldFulfillmentOrder(payloadId)], [], Raised(e))
    case Done(data) =>
      var step := Persist(db, shop, payloadId, data.orderId, data.status, Some(now), Some(data.createdAt));
      match step.outcome
      case Raised(e) => Handled(step.db, [HoldFulfillmentOrder(payloadId)], [], Raised(e))
      case Done(_) =>
        Handled(step.db, [HoldFulfillmentOrder(payloadId)],
                [ReleaseHold(payloadId, ReleaseAt(data.createdAt))], Done(()))
  }

  /** `persist!` as written: `find_or_initialize_by!` is not an ActiveRecord
      finder, so once the order is found or created — and committed — the
      call raises `NoMethodError` and no fulfillment order is written. */
  function PersistAsWritten(db: Db, shop: string, id: string, orderId: string, status: string,
                            heldAt: Option<Time>, createdAt: Option<Time>): (r: Step<FulfillmentOrder>)
    requires shop in db.shops
    ensures r.outcome.Raised?
    ensures PersistSucceeds(db, shop, id, orderId, status) ==> r.outcome.error == NoMethodError
    ensures r.db == Persist(db, shop, id, orderId, status, heldAt, createdAt).db.(fulfillmentOrders := db.fulfillmentOrders)
  {
    var s1 := FindOrCreateOrder(db, shop, orderId, None);
    if s1.outcome.Raised? then Step(s1.db, Raised(s1.outcome.error))
    else Step(s1.db, Raised(NoMethodError))
  }

  /** `hold_immediately_and_persist!` over `persist!` as written. */
  function HoldImmediatelyAndPersistAsWritten(db: Db, shop: string, payloadId: string, now: Time,
                                              remote: Outcome<RemoteFulfillmentOrder>): (r: Handled)
    requires shop in db.shops
    ensures r.calls == [HoldFulfillmentOrder(payloadId)]
    ensures r.jobs == [] && r.outcome.Raised?
    ensures r.db.fulfillmentOrders == db.fulfillmentOrders
    ensures remote.Done? ==>
      r.db == HoldImmediatelyAndPersist(db, shop, payloadId, now, remote).db.(fulfillmentOrders := db.fulfillmentOrders)
  {
    match remote
    case Raised(e) => Handled(db, [HoldFulfillmentOrder(payloadId)], [], Raised(e))
    case Done(data) =>
      var step := PersistAsWritten(db, shop, payloadId, data.orderId, data.status, Some(now), Some(data.createdAt));
      Handled(step.db, [HoldFulfillmentOrder(payloadId)], [], Raised(step.outcome.error))
  }

  /** As written, an event whose hold succeeds and whose data would persist
      still fails: the fulfillment order is held remotely and its order is
      committed, but the record is not written and no release is ever
      scheduled — where persisting as intended schedules one. */
  lemma HeldButNeverReleased(db: Db, shop: string, payloadId: string, now: Time, data: RemoteFulfillmentOrder)
    requires shop in db.shops
    requires payloadId !in db.fulfillmentOrders
    requires PersistSucceeds(db, shop, payloadId, data.orderId, data.status)
    ensures var w := HoldImmediatelyAndPersistAsWritten(db, shop, payloadId, now, Done(data));
      && w.calls == [HoldFulfillmentOrder(payloadId)]
      && w.outcome == Raised(NoMethodError)
      && data.orderId in w.db.orders
      && payloadId !in w.db.fulfillmentOrders
      && w.jobs == []
    ensures HoldImmediatelyAndPersist(db, shop, payloadId, now, Done(data)).jobs != []
  {
  }

  /** Persisting as intended: a held fulfillment order whose data persists
      is stored as held and gets exactly one release job. */
  lemma HeldRecordIsReleased(db: Db, shop: string, payloadId: string, now: Time, data: RemoteFulfillmentOrder)
    requires shop in db.shops
    requires PersistSucceeds(db, shop, payloadId, data.orderId, data.status)
    ensures var c := HoldImmediatelyAndPersist(db, shop, payloadId, now, Done(data));
      && c.outcome.Done?
      && c.jobs == [ReleaseHold(payloadId, ReleaseAt(data.createdAt))]
      && payloadId in c.db.fulfillmentOrders
      && c.db.fulfillmentOrders[payloadId].heldAt == Some(now)
  {
  }

  /** `persist_from_shopify!`: fetch the fulfillment order and persist it
      without a hold; `held_at` is never set on this path. */
  function PersistFromShopify(db: Db, shop: string, payloadId: string,
                              remote: Outcome<RemoteFulfillmentOrder>): (r: Handled)
    requires shop in db.shops
    ensures r.calls == [GetFulfillmentOrder(payloadId)] && r.jobs == []
    ensures remote.Raised? ==> r.db == db && r.outcome == Raised(remote.error)
    ensures r.outcome.Done? ==>
      && remote.Done?
      && payloadId in r.db.fulfillmentOrders
      && r.db.fulfillmentOrders[payloadId].heldAt ==
           (if payloadId in db.fulfillmentOrders then db.fulfillmentOrders[payloadId].heldAt else None)
  {
    match remote
    case Raised(e) => Handled(db, [GetFulfillmentOrder(payloadId)], [], Raised(e))
    case Done(data) =>
      var step := Persist(db, shop, payloadId, data.orderId, data.status, None, Some(data.createdAt));
      Handled(step.db, [GetFulfillmentOrder(payloadId)], [],
              match step.outcome case Done(_) => Done(()) case Raised(e) => Raised(e))
  }

  /** `from_shopify!` once the shop's hold decision is known: hold now, or
      enqueue a job that persists later and leave the store as it is. */
  function FromShopifyDeciding(hold: bool, db: Db, shop: string, payloadId: string, now: Time,
                               remote: Outcome<RemoteFulfillmentOrder>): (r: Handled)
    requires shop in db.shops
    ensures hold ==> r.calls == [HoldFulfillmentOrder(payloadId)]
    ensures !hold ==> r == Handled(db, [], [PersistFulfillmentOrder(shop, payloadId)], Done(()))
    ensures r.outcome.Done? ==> r.outcome.value == ()
  {
    if hold then HoldImmediatelyAndPersist(db, shop, payloadId, now, remote)
    else Handled(db, [], [PersistFulfillmentOrder(shop, payloadId)], Done(()))
  }

  /** `from_shopify!`: every shop holds, so a hold is always requested, and
      on success the release is scheduled thirty minutes after creation
      regardless of the shop's settings. */
  function FromShopify(db: Db, shop: string, payloadId: string, now: Time,
                       remote: Outcome<RemoteFulfillmentOrder>): (r: Handled)
    requires shop in db.shops
    ensures r.calls == [HoldFulfillmentOrder(payloadId)]
    ensures r.outcome.Done? ==>
      && remote.Done?
      && r.jobs == [ReleaseHold(payloadId, remote.value.createdAt + 30 * 60)]
      && payloadId in r.db.fulfillmentOrders
      && r.db.fulfillmentOrders[payloadId].heldAt == Some(now)
  {
    FromShopifyDeciding(Shops.ShouldHoldFulfillmentOrder(shop), db, shop, payloadId, now, remote)
  }

  /** A redelivered event leaves the store as one delivery did. */
  lemma FromShopifyIdempotentStore(db: Db, shop: string, payloadId: string, now: Time,
                                   data: RemoteFulfillmentOrder)
    requires shop in db.shops
    requires FromShopify(db, shop, payloadId, now, Done(data)).outcome.Done?
    ensures var r := FromShopify(db, shop, payloadId, now, Done(data));
      FromShopify(r.db, shop, payloadId, now, Done(data)).db == r.db
  {
    PersistIdempotent(db, shop, payloadId, data.orderId, data.status, Some(now), Some(data.createdAt));
  }
}

=== FILE: order_status_editor.dfy ===
/** The order-status page's address editor: what a submit does with the
    backend's replies — resubmitting while the backend flags the failure as
    retryable and the time budget lasts — and what it then shows. */
module OrderStatusEditor {
  import opened Common
  import opened Strings
  import opened AddressForm
  import Api
  import Store
  import AddressEditable

  /** `maxRetryMs` and `retryIntervalMs`, in milliseconds. */
  const MaxRetryMs: int := 15000
  const RetryIntervalMs: int := 2000

  /** The one field-error code the editor understands. */
  const ZipFieldError: string := "zip"

  /** What `submitUpdate()` resolves to: the parsed JSON body, or a throw
      (the request failed or the body was not JSON). */
  datatype Reply = Threw | Json(body: Api.Body)

  /** The reply a backend response makes: a throw when the fetch failed or
      the response has no JSON body. */
  function ReplyOf(response: Option<Api.Response>): (r: Reply)
    ensures r.Json? <==> response.Some? && response.value.body.Some?
    ensures r.Json? ==> r.body == response.value.body.value
  {
    match response
    case Some(Response(_, _, Some(b))) => Json(b)
    case _ => Threw
  }

  /** The editor's state around a submit. */
  datatype Form = Form(address: Address, original: Address, zipError: bool)

  /** What a submit leaves behind: how many requests it sent, whether it
      succeeded (and the status-page URL then), the zip error and banner
      shown, and the loading flag. */
  datatype Submit = Submit(submissions: nat, success: bool, statusPageUrl: Option<string>,
                           zipError: bool, banner: Option<Banner>, loading: bool)

  /** `data.fieldErrors?.includes("zip")`. */
  predicate HasZipError(b: Api.Body)
  {
    b.fieldErrors.Some? && ZipFieldError in b.fieldErrors.value
  }

  /** The error display after a final failed reply: the zip error exactly
      when the reply names the zip field; the banner is the first error
      when there is one, otherwise the generic failure text unless the zip
      error already explains the failure. */
  function ErrorDisplay(b: Api.Body): (r: (bool, Option<Banner>))
    ensures r.0 <==> HasZipError(b)
    ensures Api.FirstError(b).Some? ==> r.1 == Some(Message(Api.FirstError(b).value))
    ensures Api.FirstError(b).None? ==> (r.1 == Some(UpdateFailed) <==> !HasZipError(b))
    ensures r.1.None? <==> Api.FirstError(b).None? && HasZipError(b)
  {
    var zip := HasZipError(b);
    var banner := match Api.FirstError(b)
      case Some(e) => Some(Message(e))
      case None => if !zip then Some(UpdateFailed) else None;
    (zip, banner)
  }

  /** A failed reply after which the loop waits and submits again. */
  predicate Resubmits(r: Reply, elapsed: int)
  {
    r.Json? && !r.body.success && r.body.retryable == Some(true) && elapsed < MaxRetryMs
  }

  /** `clock(k)` is `Date.now()` when the loop inspects the reply to the
      `k`-th request (counting from 0), `start` is `startTime`. Each wait
      lasts at least the retry interval and time does not run backwards. */
  ghost predicate Paced(clock: nat -> int, start: int)
  {
    start <= clock(0) && forall k: nat :: clock(k) + RetryIntervalMs <= clock(k + 1)
  }

  /** Time after `k` waits is at least `k` intervals past the start. */
  lemma {:induction false} PacedLowerBound(clock: nat -> int, start: int, k: nat)
    requires Paced(clock, start)
    ensures start + RetryIntervalMs * k <= clock(k)
  {
    if k > 0 {
      PacedLowerBound(clock, start, k - 1);
    }
  }

  /** The submit loop from the `k`-th request on, replies `reply(k)`, … . */
  function Loop(reply: nat -> Reply, clock: nat -> int, start: int, k: nat): (r: Submit)
    requires Paced(clock, start)
    requires k <= 8
    ensures k + 1 <= r.submissions <= 9
    ensures !r.loading
    decreases 8 - k
  {
    match reply(k)
    case Threw => Submit(k + 1, false, None, false, Some(NetworkError), false)
    case Json(b) =>
      if b.success then Submit(k + 1, true, b.statusPageUrl, false, None, false)
      else if Resubmits(reply(k), clock(k) - start) then
        PacedLowerBound(clock, start, k);
        Loop(reply, clock, start, k + 1)
      else
        var (zip, banner) := ErrorDisplay(b);
        Submit(k + 1, false, None, zip, banner, false)
  }

  /** `handleSubmit`: submit, stop on success, resubmit after the interval
      while the failure is retryable and under 15000 ms have passed, then
      show the error display (or the network error for a throw). At most
      nine requests are sent, every request but the last got a retryable
      failure in time, and loading is reset. */
  method HandleSubmit(reply: nat -> Reply, clock: nat -> int, start: int) returns (r: Submit)
    requires Paced(clock, start)
    ensures 1 <= r.submissions <= 9
    ensures !r.loading
    ensures forall j :: 0 <= j < r.submissions - 1 ==> Resubmits(reply(j), clock(j) - start)
    ensures !Resubmits(reply(r.submissions - 1), clock(r.submissions - 1) - start)
    ensures r.success <==> reply(r.submissions - 1).Json? && reply(r.submissions - 1).body.success
    ensures r.success ==> r.statusPageUrl == reply(r.submissions - 1).body.statusPageUrl && r.banner.None?
    ensures reply(r.submissions - 1).Threw? ==> r.banner == Some(NetworkError) && !r.zipError
    ensures reply(r.submissions - 1).Json? && !r.success ==>
      (r.zipError, r.banner) == ErrorDisplay(reply(r.submissions - 1).body)
    ensures r == Loop(reply, clock, start, 0)
  {
    var k: nat := 0;
    while true
      invariant k <= 8
      invariant Loop(reply, clock, start, k) == Loop(reply, clock, start, 0)
      invariant forall j :: 0 <= j < k ==> Resubmits(reply(j), clock(j) - start)
      decreases 8 - k
    {
      var data := reply(k);
      if data.Threw? {
        return Submit(k + 1, false, None, false, Some(NetworkError), false);
      }
      if data.body.success {
        return Submit(k + 1, true, data.body.statusPageUrl, false, None, false);
      }
      if Resubmits(data, clock(k) - start) {
        PacedLowerBound(clock, start, k);
        k := k + 1;
      } else {
        var (zip, banner) := ErrorDisplay(data.body);
        return Submit(k + 1, false, None, zip, banner, false);
      }
    }
  }

  /** Nine requests can happen: when every reply is a retryable failure and
      each wait lasts exactly the interval. */
  lemma {:induction false} NineSubmissionsReachable(reply: nat -> Reply, start: int, k: nat)
    requires forall j: nat :: reply(j).Json? && !reply(j).body.success && reply(j).body.retryable == Some(true)
    requires k <= 8
    ensures Loop(reply, (j: nat) => start + RetryIntervalMs * j, start, k).submissions == 9
    decreases 8 - k
  {
    if k < 8 {
      NineSubmissionsReachable(reply, start, k + 1);
    }
  }

  /** Against replies that never carry `retryable` — what the backend as
      written sends — a submit sends exactly one request, and without
      `fieldErrors` no zip error is ever shown. */
  lemma OneRequestWithoutRetryFlag(reply: nat -> Reply, clock: nat -> int, start: int)
    requires Paced(clock, start)
    requires forall j: nat :: reply(j).Json? ==> reply(j).body.retryable.None? && reply(j).body.fieldErrors.None?
    ensures Loop(reply, clock, start, 0).submissions == 1
    ensures !Loop(reply, clock, start, 0).zipError
  {
  }

  /** Every reply the backend can send for one request: what `create`
      answers for the given store, request and remote result. */
  lemma BackendNeverTriggersRetry(db: Store.Db, req: Api.Request, decode: string -> Option<string>,
                                  remote: nat -> Outcome<AddressEditable.UpdatePayload>,
                                  clock: nat -> int, start: int)
    requires Paced(clock, start)
    ensures var reply := (j: nat) => ReplyOf(Some(Api.Create(db, req, decode, remote(j)).response));
      Loop(reply, clock, start, 0).submissions == 1
  {
    var reply := (j: nat) => ReplyOf(Some(Api.Create(db, req, decode, remote(j)).response));
    forall j: nat
      ensures reply(j).Json? ==> reply(j).body.retryable.None? && reply(j).body.fieldErrors.None?
    {
      var response := Api.Create(db, req, decode, remote(j)).response;
      assert reply(j) == ReplyOf(Some(response));
    }
    OneRequestWithoutRetryFlag(reply, clock, start);
  }

  /** With the corrected backend, a not-yet-visible order in time is
      resubmitted rather than reported. */
  lemma RetryableFailureIsResubmitted(reply: nat -> Reply, clock: nat -> int, start: int)
    requires Paced(clock, start)
    requires reply(0) == Json(Api.Body(false, Some([]), None, Some(true), None))
    requires clock(0) - start < MaxRetryMs
    ensures Loop(reply, clock, start, 0).submissions >= 2
  {
  }

  /** `updateField(name)`: the field takes the new value, the snapshot is
      kept, and editing the zip field clears the zip error. */
  function UpdateField(form: Form, f: Field, v: string): (r: Form)
    ensures Get(r.address, f) == v
    ensures forall g :: g != f ==> Get(r.address, g) == Get(form.address, g)
    ensures r.original == form.original
    ensures r.zipError <==> form.zipError && f != Zip
  {
    Form(Set(form.address, f, v), form.original, if f == Zip then false else form.zipError)
  }

  /** The save button is enabled when not loading, the form is valid and
      something changed. */
  predicate CanSave(form: Form, isGerman: bool, loading: bool)
  {
    !loading && IsFormValid(form.address, isGerman) && HasChanges(form.address, form.original)
  }

  /** A freshly opened editor cannot save until a field is changed. */
  lemma FreshFormCannotSave(shipping: map<string, string>, isGerman: bool)
    ensures var a := FromShipping(shipping);
      !CanSave(Form(a, a, false), isGerman, false)
  {
  }
}

=== FILE: release_job.dfy ===
/** `ReleaseFulfillmentOrderHoldJob`: release the remote hold on a stored
    fulfillment order and copy the returned status, under the job's retry
    and discard rules. */
module ReleaseHoldJob {
  import opened Common
  import opened Strings
  import opened Store
  import FulfillmentOrders

  /** `attempts: 10` on each `retry_on`: executions that raised that
      declaration's exception, the current one included. */
  const MaxAttempts: nat := 10

  /** How many earlier executions raised each retried exception. The two
      `retry_on` declarations count separately (`exception_executions` is
      keyed by the declaration's exception list). */
  datatype Tally = Tally(throttled: nat, serverErrors: nat)

  /** The tally after an execution whose reply was `reply`. */
  function Record(t: Tally, reply: ReleaseReply): (r: Tally)
    ensures r.throttled == t.throttled + (if reply == Raised(TooManyRequests) then 1 else 0)
    ensures r.serverErrors == t.serverErrors + (if reply == Raised(ServerError) then 1 else 0)
  {
    match reply
    case Raised(TooManyRequests) => t.(throttled := t.throttled + 1)
    case Raised(ServerError) => t.(serverErrors := t.serverErrors + 1)
    case _ => t
  }

  /** What the runner does with the exception an execution raised, given
      the earlier executions' tally: discard a user error, retry throttling
      or a server error until that exception's tenth occurrence, and fail
      on anything else. */
  function Classify(e: Exception, t: Tally): (d: Disposition)
    ensures d != Completed
    ensures d == Discarded <==> e.UserError?
    ensures d == RetryScheduled <==>
      || (e == TooManyRequests && t.throttled + 1 < MaxAttempts)
      || (e == ServerError && t.serverErrors + 1 < MaxAttempts)
    ensures d.Failed? ==> d.error == e
  {
    match e
    case UserError(_) => Discarded
    case TooManyRequests => if t.throttled + 1 < MaxAttempts then RetryScheduled else Failed(e)
    case ServerError => if t.serverErrors + 1 < MaxAttempts then RetryScheduled else Failed(e)
    case _ => Failed(e)
  }

  /** The status the release mutation's payload reports for the released
      fulfillment order, as returned by the client (nil when the payload
      carries no fulfillment order), or the exception it raised. */
  type ReleaseReply = Outcome<Option<string>>

  /** The store after a successful `update!(status:)`. */
  predicate StatusOnlyUpdated(db: Db, r: Db, foId: string, status: string)
    requires foId in db.fulfillmentOrders
  {
    && r.shops == db.shops && r.settings == db.settings && r.orders == db.orders
    && foId in r.fulfillmentOrders
    && r.fulfillmentOrders[foId] == db.fulfillmentOrders[foId].(status := status)
    && r.fulfillmentOrders - {foId} == db.fulfillmentOrders - {foId}
  }

  /** `perform(fulfillment_order_id:)`, after earlier executions tallied
      by `t`: find the record (missing is `RecordNotFound`), release the
      hold under the shop's session, then `update!` the status, which
      re-runs the record's validations. */
  function Perform(db: Db, foId: string, t: Tally, reply: ReleaseReply): (r: JobRun)
    ensures foId !in db.fulfillmentOrders ==> r == JobRun(db, [], Failed(RecordNotFound))
    ensures foId in db.fulfillmentOrders && db.fulfillmentOrders[foId].shop in db.shops ==>
      r.calls == [ReleaseFulfillmentOrderHold(foId)]
    ensures r.disposition != Completed ==> r.db == db
    ensures r.disposition == Completed <==>
      && foId in db.fulfillmentOrders
      && db.fulfillmentOrders[foId].shop in db.shops
      && reply.Done? && reply.value.Some?
      && FulfillmentOrders.RecordValid(db, foId, db.fulfillmentOrders[foId].(status := reply.value.value))
    ensures r.disposition == Completed ==> StatusOnlyUpdated(db, r.db, foId, reply.value.value)
    ensures r.disposition == Discarded <==> r.calls != [] && reply.Raised? && reply.error.UserError?
    ensures r.disposition == RetryScheduled <==>
      r.calls != [] && reply.Raised? && Classify(reply.error, t) == RetryScheduled
  {
    if foId !in db.fulfillmentOrders then JobRun(db, [], Classify(RecordNotFound, t))
    else
      var fo := db.fulfillmentOrders[foId];
      if fo.shop !in db.shops then JobRun(db, [], Classify(NoMethodError, t))
      else
        var calls := [ReleaseFulfillmentOrderHold(foId)];
        match reply
        case Raised(e) => JobRun(db, calls, Classify(e, t))
        case Done(None) => JobRun(db, calls, Classify(NoMethodError, t))
        case Done(Some(status)) =>
          var saved := FulfillmentOrders.Save(db, foId, fo.(status := status), false);
          match saved.outcome
          case Done(_) => JobRun(saved.db, calls, Completed)
          case Raised(e) => JobRun(db, calls, Classify(e, t))
  }

  /** On a stored record written by `persist!`, a released status is
      copied, and `held_at` is left as it was. */
  lemma ReleaseCopiesStatus(db: Db, foId: string, t: Tally, status: string)
    requires Valid(db)
    requires foId in db.fulfillmentOrders && db.fulfillmentOrders[foId].order.Some?
    requires !IsBlank(status)
    ensures var r := Perform(db, foId, t, Done(Some(status)));
      && r.disposition == Completed
      && r.db.fulfillmentOrders[foId].status == status
      && r.db.fulfillmentOrders[foId].heldAt == db.fulfillmentOrders[foId].heldAt
  {
    assert FulfillmentOrderRowValid(db, foId);
  }

  /** The tally before execution number `n` of a run against replies
      `reply(1)`, `reply(2)`, … . */
  function TallyBefore(reply: nat -> ReleaseReply, n: nat): (t: Tally)
    ensures t.throttled + t.serverErrors <= if n == 0 then 0 else n - 1
    decreases n
  {
    if n <= 1 then Tally(0, 0) else Record(TallyBefore(reply, n - 1), reply(n - 1))
  }

  /** Bounds every tally of a run keeps: each kind below its limit. */
  predicate InBudget(t: Tally)
  {
    t.throttled < MaxAttempts && t.serverErrors < MaxAttempts
  }

  /** The job's executions against replies `reply(1)`, `reply(2)`, …, from
      the execution after those tallied by `t`: it runs again only while
      the runner schedules a retry. Returns the last execution's run, its
      number and the tally before it. */
  function RunFrom(db: Db, foId: string, reply: nat -> ReleaseReply, t: Tally): (r: (JobRun, nat, Tally))
    requires InBudget(t)
    ensures 1 + t.throttled + t.serverErrors <= r.1 <= 2 * MaxAttempts - 1
    ensures r.1 == 1 + r.2.throttled + r.2.serverErrors && InBudget(r.2)
    ensures r.0.disposition != RetryScheduled
    ensures r.0 == Perform(db, foId, r.2, reply(r.1))
    ensures r.0.disposition == Failed(TooManyRequests) && reply(r.1) == Raised(TooManyRequests) ==>
      r.2.throttled == MaxAttempts - 1
    ensures r.0.disposition == Failed(ServerError) && reply(r.1) == Raised(ServerError) ==>
      r.2.serverErrors == MaxAttempts - 1
    decreases 2 * MaxAttempts - t.throttled - t.serverErrors
  {
    var n := 1 + t.throttled + t.serverErrors;
    var run := Perform(db, foId, t, reply(n));
    if run.disposition == RetryScheduled then RunFrom(db, foId, reply, Record(t, reply(n)))
    else (run, n, t)
  }

  /** A retried execution keeps the tally in budget, and the run goes on
      from the next execution. */
  lemma RetryContinues(db: Db, foId: string, reply: nat -> ReleaseReply, t: Tally)
    requires InBudget(t)
    requires Perform(db, foId, t, reply(1 + t.throttled + t.serverErrors)).disposition == RetryScheduled
    ensures var n := 1 + t.throttled + t.serverErrors;
      && reply(n) in {Raised(TooManyRequests), Raised(ServerError)}
      && InBudget(Record(t, reply(n)))
      && RunFrom(db, foId, reply, Record(t, reply(n))) == RunFrom(db, foId, reply, t)
  {
  }

  /** An execution that raises leaves the runner's decision to `Classify`. */
  lemma RaisedIsClassified(db: Db, foId: string, t: Tally, e: Exception)
    requires foId in db.fulfillmentOrders && db.fulfillmentOrders[foId].shop in db.shops
    ensures Perform(db, foId, t, Raised(e)).disposition == Classify(e, t)
  {
  }

  /** The job from its first execution until the runner stops retrying:
      at most nineteen executions (nine retries of each kind), the last
      one not a retry, every earlier one a retry that left the store
      unchanged. */
  method RunWithRetries(db: Db, foId: string, reply: nat -> ReleaseReply) returns (final: JobRun, executions: nat)
    ensures 1 <= executions <= 2 * MaxAttempts - 1
    ensures final.disposition != RetryScheduled
    ensures final == Perform(db, foId, TallyBefore(reply, executions), reply(executions))
    ensures forall k :: 1 <= k < executions ==>
      Perform(db, foId, TallyBefore(reply, k), reply(k)).disposition == RetryScheduled
    ensures (final, executions, TallyBefore(reply, executions)) == RunFrom(db, foId, reply, Tally(0, 0))
  {
    executions := 1;
    var t := Tally(0, 0);
    final := Perform(db, foId, t, reply(1));
    while final.disposition == RetryScheduled
      invariant InBudget(t) && executions == 1 + t.throttled + t.serverErrors
      invariant t == TallyBefore(reply, executions)
      invariant final == Perform(db, foId, t, reply(executions))
      invariant forall k :: 1 <= k < executions ==>
        Perform(db, foId, TallyBefore(reply, k), reply(k)).disposition == RetryScheduled
      invariant RunFrom(db, foId, reply, t) == RunFrom(db, foId, reply, Tally(0, 0))
      decreases 2 * MaxAttempts - t.throttled - t.serverErrors
    {
      RetryContinues(db, foId, reply, t);
      ghost var done := executions;
      assert Perform(db, foId, TallyBefore(reply, done), reply(done)).disposition == RetryScheduled;
      t := Record(t, reply(executions));
      executions := executions + 1;
      assert t == TallyBefore(reply, executions);
      forall k | 1 <= k < executions
        ensures Perform(db, foId, TallyBefore(reply, k), reply(k)).disposition == RetryScheduled
      {
        if k == done {
        }
      }
      final := Perform(db, foId, t, reply(executions));
    }
  }

  /** A server that keeps throttling makes the job run exactly ten times
      and then fail with the throttling error. */
  lemma {:induction false} PersistentThrottlingFailsAfterTenExecutions(db: Db, foId: string, reply: nat -> ReleaseReply, t: Tally)
    requires foId in db.fulfillmentOrders && db.fulfillmentOrders[foId].shop in db.shops
    requires forall n :: reply(n) == Raised(TooManyRequests)
    requires t.serverErrors == 0 && t.throttled < MaxAttempts
    ensures RunFrom(db, foId, reply, t).1 == MaxAttempts
    ensures RunFrom(db, foId, reply, t).0.disposition == Failed(TooManyRequests)
    decreases MaxAttempts - t.throttled
  {
    var n := 1 + t.throttled;
    assert reply(n) == Raised(TooManyRequests);
    RaisedIsClassified(db, foId, t, TooManyRequests);
    if t.throttled + 1 < MaxAttempts {
      RetryContinues(db, foId, reply, t);
      PersistentThrottlingFailsAfterTenExecutions(db, foId, reply, Record(t, reply(n)));
    }
  }

  /** Throttling on odd-numbered executions, server errors on even ones. */
  function Alternating(n: nat): ReleaseReply
  {
    if n % 2 == 1 then Raised(TooManyRequests) else Raised(ServerError)
  }

  /** One execution of the alternating run: after equal tallies comes
      throttling, otherwise a server error, and either is retried while
      its kind is in budget. */
  lemma AlternatingStep(db: Db, foId: string, reply: nat -> ReleaseReply, t: Tally)
    requires foId in db.fulfillmentOrders && db.fulfillmentOrders[foId].shop in db.shops
    requires forall n: nat :: reply(n) == Alternating(n)
    requires t.serverErrors <= t.throttled <= t.serverErrors + 1 && InBudget(t)
    ensures var n := 1 + t.throttled + t.serverErrors;
      && reply(n) == (if t.throttled == t.serverErrors then Raised(TooManyRequests) else Raised(ServerError))
      && Perform(db, foId, t, reply(n)).disposition == Classify(reply(n).error, t)
  {
    var n := 1 + t.throttled + t.serverErrors;
    if t.throttled == t.serverErrors {
      assert n == 2 * t.serverErrors + 1;
    } else {
      assert n == 2 * t.throttled;
    }
    assert reply(n) == Alternating(n);
    RaisedIsClassified(db, foId, t, reply(n).error);
  }

  /** Throttling and server errors in turn exhaust both budgets: the job
      runs nineteen times and fails on the tenth throttling error. */
  lemma {:induction false} AlternatingFailuresRunNineteenTimes(db: Db, foId: string, reply: nat -> ReleaseReply, t: Tally)
    requires foId in db.fulfillmentOrders && db.fulfillmentOrders[foId].shop in db.shops
    requires forall n: nat :: reply(n) == Alternating(n)
    requires t.serverErrors <= t.throttled <= t.serverErrors + 1 && InBudget(t)
    ensures RunFrom(db, foId, reply, t).1 == 2 * MaxAttempts - 1
    ensures RunFrom(db, foId, reply, t).0.disposition == Failed(TooManyRequests)
    decreases 2 * MaxAttempts - t.throttled - t.serverErrors
  {
    AlternatingStep(db, foId, reply, t);
    if t.throttled == t.serverErrors && t.throttled + 1 == MaxAttempts {
    } else {
      RetryContinues(db, foId, reply, t);
      AlternatingFailuresRunNineteenTimes(db, foId, reply, Record(t, reply(1 + t.throttled + t.serverErrors)));
    }
  }
}

=== FILE: settings.dfy ===
/** The per-shop hold-duration setting: the fixed list of choices, the
    default, and the labelled options of the settings form. */
module Settings {
  import Strings

  /** The durations, in minutes, a merchant can choose from. */
  const HoldDurationOptions: seq<int> := [30, 45, 60, 90, 120, 180]

  /** The column default of `hold_duration_minutes`. */
  const DefaultHoldDurationMinutes: int := 30

  /** "n unit" or "n units", as ActiveSupport pluralises a duration part. */
  function Part(n: nat, unit: string): string
  {
    Strings.NatToString(n) + " " + unit + (if n == 1 then "" else "s")
  }

  /** `ActiveSupport::Duration.build(minutes * 60).inspect` for durations
      shorter than a day: the hour part and the minute part, each shown only
      when non-zero, joined by " and ". */
  function DurationLabel(minutes: int): (text: string)
    requires 0 < minutes < 24 * 60
    ensures minutes < 60 ==> text == Part(minutes, "minute")
    ensures minutes % 60 == 0 ==> text == Part(minutes / 60, "hour")
    ensures minutes > 60 && minutes % 60 != 0 ==>
      text == Part(minutes / 60, "hour") + " and " + Part(minutes % 60, "minute")
  {
    var hours, rest := minutes / 60, minutes % 60;
    if hours == 0 then Part(rest, "minute")
    else if rest == 0 then Part(hours, "hour")
    else Part(hours, "hour") + " and " + Part(rest, "minute")
  }

  /** `hold_duration_options_for_select`: one (label, minutes) pair per
      option, in the order of the option list. */
  function HoldDurationOptionsForSelect(): (r: seq<(string, int)>)
    ensures |r| == |HoldDurationOptions|
    ensures forall i :: 0 <= i < |r| ==> r[i].1 == HoldDurationOptions[i]
    ensures forall i :: 0 <= i < |r| ==> r[i].0 == DurationLabel(HoldDurationOptions[i])
  {
    seq(|HoldDurationOptions|, i requires 0 <= i < |HoldDurationOptions| =>
      (DurationLabel(HoldDurationOptions[i]), HoldDurationOptions[i]))
  }

  /** The options are strictly ascending and include the default. */
  lemma HoldDurationOptionsAscending()
    ensures forall i, j :: 0 <= i < j < |HoldDurationOptions| ==> HoldDurationOptions[i] < HoldDurationOptions[j]
    ensures DefaultHoldDurationMinutes in HoldDurationOptions
  {
  }

  lemma MinutesLabels()
    ensures DurationLabel(30) == "30 minutes"
    ensures DurationLabel(45) == "45 minutes"
  {
    MinutePart(30, '3', '0');
    MinutePart(45, '4', '5');
  }

  lemma HoursLabels()
    ensures DurationLabel(60) == "1 hour"
    ensures DurationLabel(120) == "2 hours"
    ensures DurationLabel(180) == "3 hours"
  {
    OneHourPart();
    HoursPart(2, '2');
    HoursPart(3, '3');
  }

  lemma MixedLabel()
    ensures DurationLabel(90) == "1 hour and 30 minutes"
  {
    OneHourPart();
    MinutePart(30, '3', '0');
    assert DurationLabel(90) == Part(1, "hour") + " and " + Part(30, "minute");
  }

  /** The label of a two-digit number of minutes. */
  lemma MinutePart(n: nat, tens: char, ones: char)
    requires 10 <= n < 60
    requires tens == Strings.DigitChar(n / 10) && ones == Strings.DigitChar(n % 10)
    ensures Part(n, "minute") == [tens, ones] + " minutes"
    ensures DurationLabel(n) == [tens, ones] + " minutes"
  {
    assert Strings.NatToString(n / 10) == [tens];
    assert Strings.NatToString(n) == [tens, ones];
  }

  lemma OneHourPart()
    ensures Part(1, "hour") == "1 hour"
    ensures DurationLabel(60) == "1 hour"
  {
    assert Strings.NatToString(1) == "1";
  }

  /** The label of a whole number of hours above one and below ten. */
  lemma HoursPart(n: nat, digit: char)
    requires 2 <= n < 10 && digit == Strings.DigitChar(n)
    ensures DurationLabel(n * 60) == [digit] + " hours"
  {
    assert Strings.NatToString(n) == [digit];
    assert DurationLabel(n * 60) == Part(n, "hour");
  }

  /** The labels the settings form shows. */
  lemma HoldDurationLabels()
    ensures HoldDurationOptionsForSelect() == [
      ("30 minutes", 30),
      ("45 minutes", 45),
      ("1 hour", 60),
      ("1 hour and 30 minutes", 90),
      ("2 hours", 120),
      ("3 hours", 180)]
  {
    MinutesLabels();
    HoursLabels();
    MixedLabel();
  }
}

=== FILE: shop.dfy ===
/** Behaviour of a shop beyond its associations: lazy settings creation,
    the hold policy, and the admin URL built from the store handle. */
module Shops {
  import opened Common
  import opened Strings
  import opened Store
  import Settings

  /** `setup!`: the settings row is created with the default duration when
      it is absent, and an existing one is left as it is. */
  function Setup(db: Db, shop: string): (r: Db)
    requires shop in db.shops
    ensures shop in r.settings
    ensures shop in db.settings ==> r == db
    ensures shop !in db.settings ==> r.settings[shop].holdDurationMinutes == Settings.DefaultHoldDurationMinutes
    ensures r.settings - {shop} == db.settings - {shop}
    ensures r.shops == db.shops && r.orders == db.orders && r.fulfillmentOrders == db.fulfillmentOrders
  {
    if shop in db.settings then db
    else db.(settings := db.settings[shop := ShopSettings(Settings.DefaultHoldDurationMinutes)])
  }

  /** Running `setup!` twice is running it once, and it keeps the store's
      constraints. */
  lemma SetupIdempotent(db: Db, shop: string)
    requires shop in db.shops
    ensures Setup(Setup(db, shop), shop) == Setup(db, shop)
    ensures Valid(db) ==> Valid(Setup(db, shop))
  {
  }

  /** `should_hold_fulfillment_order?`: every fulfillment order is held. */
  function ShouldHoldFulfillmentOrder(shop: string): (hold: bool)
    ensures hold
  {
    true
  }

  const StoreDomainSuffix: string := ".myshopify.com"
  const AdminStorePrefix: string := "https://admin.shopify.com/store/"

  /** `s` is `StoreDomainSuffix` repeated zero or more times: exactly the
      strings Ruby's `split` turns into an empty array. */
  predicate OnlySuffixes(s: string)
    decreases |s|
  {
    s == [] || (StoreDomainSuffix <= s && OnlySuffixes(s[|StoreDomainSuffix|..]))
  }

  /** `shopify_domain.split(".myshopify.com").first`: the text before the
      first occurrence of the suffix (the whole domain when there is none),
      or nil when splitting leaves no fields at all. */
  function ShopHandle(domain: string): (h: Option<string>)
    ensures h.None? <==> OnlySuffixes(domain)
    ensures h.Some? && !Contains(domain, StoreDomainSuffix) ==> h.value == domain
    ensures h.Some? && Contains(domain, StoreDomainSuffix) ==> IndexOf(domain, StoreDomainSuffix) == Some(|h.value|)
    ensures h.Some? ==> h.value <= domain && !Contains(h.value, StoreDomainSuffix)
  {
    if OnlySuffixes(domain) then None
    else match IndexOf(domain, StoreDomainSuffix)
      case None => Some(domain)
      case Some(i) =>
        assert domain[..i] <= domain;
        assert !Contains(domain[..i], StoreDomainSuffix) by {
          forall j | 0 <= j <= i ensures !OccursAt(domain[..i], StoreDomainSuffix, j) {
            if j + |StoreDomainSuffix| <= i {
              assert domain[..i][j..j + |StoreDomainSuffix|] == domain[j..j + |StoreDomainSuffix|];
              assert !OccursAt(domain, StoreDomainSuffix, j);
            }
          }
        }
        Some(domain[..i])
  }

  /** `admin_url(path = nil)`: a nil handle or path interpolates as "". */
  function AdminUrl(domain: string, path: Option<string>): (url: string)
    ensures AdminStorePrefix <= url
  {
    var handle := match ShopHandle(domain) case Some(h) => h case None => "";
    var p := match path case Some(q) => q case None => "";
    AdminStorePrefix + handle + p
  }

  /** No proper suffix of `StoreDomainSuffix` is also a prefix of it, so an
      occurrence cannot start inside a handle and end inside the suffix. */
  lemma SuffixHasNoBorder(k: int)
    requires 0 < k < |StoreDomainSuffix|
    ensures StoreDomainSuffix[k..] != StoreDomainSuffix[..|StoreDomainSuffix| - k]
  {
    var s := StoreDomainSuffix;
    if s[k] != s[0] {
      assert s[k..][0] != s[..|s| - k][0];
    } else {
      assert k == 10;
      assert s[k..][1] != s[..|s| - k][1];
    }
  }

  /** In `h + suffix`, where `h` does not contain the suffix, the first
      occurrence of the suffix is the appended one. */
  lemma FirstSuffixIsAppended(h: string)
    requires !Contains(h, StoreDomainSuffix)
    ensures IndexOf(h + StoreDomainSuffix, StoreDomainSuffix) == Some(|h|)
  {
    var s, d := StoreDomainSuffix, h + StoreDomainSuffix;
    assert d[|h|..|h| + |s|] == s;
    assert OccursAt(d, s, |h|);
    forall j | 0 <= j < |h|
      ensures !OccursAt(d, s, j)
    {
      if j + |s| <= |h| {
        assert !OccursAt(h, s, j);
        assert d[j..j + |s|] == h[j..j + |s|];
      } else {
        var k := |h| - j;
        SuffixHasNoBorder(k);
        var w := d[j..j + |s|];
        assert w[k..] == d[|h|..j + |s|] == s[..|s| - k];
        assert w[k..] != s[k..];
      }
    }
  }

  /** For a domain `h + ".myshopify.com"` with a non-empty handle `h` that
      does not itself contain the suffix, the handle is `h` and the admin
      URL is the store prefix followed by `h` and the path. */
  lemma ShopHandleOfStoreDomain(h: string, path: string)
    requires h != []
    requires !Contains(h, StoreDomainSuffix)
    ensures ShopHandle(h + StoreDomainSuffix) == Some(h)
    ensures AdminUrl(h + StoreDomainSuffix, Some(path)) == AdminStorePrefix + h + path
    ensures AdminUrl(h + StoreDomainSuffix, None) == AdminStorePrefix + h
  {
    var s, d := StoreDomainSuffix, h + StoreDomainSuffix;
    FirstSuffixIsAppended(h);
    assert !OccursAt(d, s, 0);
    assert !(s <= d);
    assert !OnlySuffixes(d);
    assert d[..|h|] == h;
  }
}

=== FILE: shop_redact_job.dfy ===
/** `ShopRedactJob`: 48 hours after a shop redaction request, destroy the
    shop and everything that depends on it, unless the shop was updated
    (reinstalled) after the request. */
module ShopRedactJob {
  import opened Common
  import opened Store
  import Compliance

  /** `perform(shop_domain:, requested_at:)`: an unknown shop raises
      `RecordNotFound`, which the job discards; a shop updated strictly
      after the request is kept; otherwise the shop is destroyed with its
      settings, orders and fulfillment orders. No remote call is made. */
  function Perform(db: Db, shop: string, requestedAt: Time): (r: JobRun)
    ensures r.calls == []
    ensures shop !in db.shops ==> r.disposition == Discarded && r.db == db
    ensures shop in db.shops ==> r.disposition == Completed
    ensures shop in db.shops && db.shops[shop].updatedAt > requestedAt ==> r.db == db
    ensures shop in db.shops && db.shops[shop].updatedAt <= requestedAt ==>
      && shop !in r.db.shops
      && shop !in r.db.settings
      && (forall k :: k in r.db.orders ==> r.db.orders[k].shop != shop)
      && (forall k :: k in r.db.fulfillmentOrders ==> r.db.fulfillmentOrders[k].shop != shop)
  {
    if shop !in db.shops then JobRun(db, [], Discarded)
    else if db.shops[shop].updatedAt > requestedAt then JobRun(db, [], Completed)
    else JobRun(DestroyShop(db, shop), [], Completed)
  }

  /** The shop is gone after the job exactly when it existed and was not
      updated after the request; other shops and their orders stay. */
  lemma DestroyedIffNotReinstalled(db: Db, shop: string, requestedAt: Time)
    ensures var r := Perform(db, shop, requestedAt);
      (shop in db.shops && shop !in r.db.shops) <==> (shop in db.shops && db.shops[shop].updatedAt <= requestedAt)
    ensures var r := Perform(db, shop, requestedAt);
      forall d :: d in db.shops && d != shop ==> d in r.db.shops && r.db.shops[d] == db.shops[d]
    ensures var r := Perform(db, shop, requestedAt);
      forall k :: k in db.orders && db.orders[k].shop != shop ==> k in r.db.orders
  {
  }

  /** Running the job again changes nothing (the second run is discarded
      or finds the shop still too recent), and the store keeps its
      constraints. */
  lemma PerformIdempotent(db: Db, shop: string, requestedAt: Time)
    ensures var r := Perform(db, shop, requestedAt);
      Perform(r.db, shop, requestedAt).db == r.db
    ensures Valid(db) ==> Valid(Perform(db, shop, requestedAt).db)
  {
    if Valid(db) && shop in db.shops {
      DestroyShopPreservesValid(db, shop);
    }
  }

  /** The shop-redaction webhook at `now` followed by its job: a shop that
      was reinstalled after `now` survives, one that was not is removed. */
  lemma WebhookThenJob(db: Db, w: Compliance.Webhook, now: Time, later: Db)
    requires w.topic == Compliance.ShopRedactTopic
    requires w.shop in later.shops
    ensures var job := Compliance.Receive(db, w, now).jobs[0];
      && job.ShopRedact? && job.runAt == now + 48 * 3600
      && (w.shop in Perform(later, job.shopDomain, job.requestedAt).db.shops <==> later.shops[w.shop].updatedAt > now)
  {
  }
}

=== FILE: store.dfy ===
/** The persisted state: shops, their settings, orders and fulfillment
    orders, as maps keyed by the identifier the unique index is on.
    A record does not repeat its own key, so uniqueness of `shopify_id`
    (and of the settings row per shop) holds by construction.
    Destroy cascades follow the `dependent: :destroy` associations. */
module Store {
  import opened Common
  import Strings

  /** A shop keyed by its `shopify_domain`; `updatedAt` is the row's
      `updated_at`, which a reinstall moves forward. */
  datatype Shop = Shop(updatedAt: Time)

  /** The one settings row of a shop. */
  datatype ShopSettings = ShopSettings(holdDurationMinutes: int)

  /** An order keyed by its `shopify_id`; `shopifyCreatedAt` is nullable. */
  datatype Order = Order(shop: string, shopifyCreatedAt: Option<Time>)

  /** A fulfillment order keyed by its `shopify_id`; `order` holds the
      owning order's `shopify_id` (the column is nullable). */
  datatype FulfillmentOrder = FulfillmentOrder(
    shop: string,
    order: Option<string>,
    status: string,
    heldAt: Option<Time>,
    shopifyCreatedAt: Option<Time>)

  datatype Db = Db(
    shops: map<string, Shop>,
    settings: map<string, ShopSettings>,
    orders: map<string, Order>,
    fulfillmentOrders: map<string, FulfillmentOrder>)

  /** A state change that may stop on an exception after some writes
      were already committed. */
  datatype Step<T> = Step(db: Db, outcome: Outcome<T>)

  /** The result of one execution of a background job. */
  datatype JobRun = JobRun(db: Db, calls: seq<RemoteCall>, disposition: Disposition)

  /** The database constraints: non-null identifiers and foreign keys.
      (Order rows are not required to have a settings row behind them.) */
  ghost predicate Valid(db: Db)
  {
    && (forall d :: d in db.settings ==> d in db.shops)
    && (forall k :: k in db.orders ==> !Strings.IsBlank(k) && db.orders[k].shop in db.shops)
    && (forall k :: k in db.fulfillmentOrders ==> FulfillmentOrderRowValid(db, k))
  }

  ghost predicate FulfillmentOrderRowValid(db: Db, k: string)
    requires k in db.fulfillmentOrders
  {
    var fo := db.fulfillmentOrders[k];
    && !Strings.IsBlank(k)
    && !Strings.IsBlank(fo.status)
    && fo.shop in db.shops
    && (fo.order.Some? ==> fo.order.value in db.orders)
  }

  /** The fulfillment orders that survive destroying the orders `ids`:
      exactly those not linked to one of them. */
  function WithoutOrders(fos: map<string, FulfillmentOrder>, ids: set<string>): (r: map<string, FulfillmentOrder>)
    ensures forall k :: k in r <==> k in fos && (fos[k].order.None? || fos[k].order.value !in ids)
    ensures forall k :: k in r ==> r[k] == fos[k]
  {
    map k | k in fos && (fos[k].order.None? || fos[k].order.value !in ids) :: fos[k]
  }

  /** `Order#destroy`: the order and, through `has_many :fulfillment_orders,
      dependent: :destroy`, exactly its own fulfillment orders go. */
  function DestroyOrder(db: Db, id: string): (r: Db)
    ensures r.shops == db.shops && r.settings == db.settings
    ensures r.orders.Keys == db.orders.Keys - {id}
    ensures forall k :: k in r.orders ==> r.orders[k] == db.orders[k]
    ensures forall k :: k in r.fulfillmentOrders <==> k in db.fulfillmentOrders && db.fulfillmentOrders[k].order != Some(id)
    ensures forall k :: k in r.fulfillmentOrders ==> r.fulfillmentOrders[k] == db.fulfillmentOrders[k]
  {
    db.(orders := db.orders - {id}, fulfillmentOrders := WithoutOrders(db.fulfillmentOrders, {id}))
  }

  /** Destroying a set of orders at once, stated on sets. */
  function DestroyOrders(db: Db, ids: set<string>): (r: Db)
    ensures r.shops == db.shops && r.settings == db.settings
    ensures r.orders.Keys == db.orders.Keys - ids
    ensures forall k :: k in r.orders ==> r.orders[k] == db.orders[k]
    ensures forall k :: k in r.fulfillmentOrders <==>
      k in db.fulfillmentOrders && (db.fulfillmentOrders[k].order.None? || db.fulfillmentOrders[k].order.value !in ids)
    ensures forall k :: k in r.fulfillmentOrders ==> r.fulfillmentOrders[k] == db.fulfillmentOrders[k]
  {
    db.(orders := db.orders - ids, fulfillmentOrders := WithoutOrders(db.fulfillmentOrders, ids))
  }

  /** `destroy_all`: each order of the list is destroyed in turn. */
  function DestroyEach(db: Db, ids: seq<string>): Db
    decreases |ids|
  {
    if ids == [] then db else DestroyEach(DestroyOrder(db, ids[0]), ids[1..])
  }

  function Elements(ids: seq<string>): set<string>
  {
    set i | 0 <= i < |ids| :: ids[i]
  }

  lemma ElementsCons(ids: seq<string>)
    requires ids != []
    ensures Elements(ids) == {ids[0]} + Elements(ids[1..])
  {
    forall x | x in Elements(ids) ensures x in {ids[0]} + Elements(ids[1..]) {
      var i :| 0 <= i < |ids| && ids[i] == x;
      if i > 0 {
        assert ids[1..][i - 1] == x;
      }
    }
    forall x | x in Elements(ids[1..]) ensures x in Elements(ids) {
      var i :| 0 <= i < |ids[1..]| && ids[1..][i] == x;
      assert ids[i + 1] == x;
    }
  }

  /** Destroying one order and then a set is destroying their union. */
  lemma DestroyOrderThenOrders(db: Db, x: string, rest: set<string>)
    ensures DestroyOrders(DestroyOrder(db, x), rest) == DestroyOrders(db, {x} + rest)
  {
    var a := DestroyOrders(DestroyOrder(db, x), rest);
    var b := DestroyOrders(db, {x} + rest);
    assert a.orders == b.orders;
    assert a.fulfillmentOrders == b.fulfillmentOrders;
  }

  /** Destroying orders one at a time, in any order, leaves the same store
      as destroying the whole set at once. */
  lemma {:induction false} DestroyEachIsDestroyOrders(db: Db, ids: seq<string>)
    ensures DestroyEach(db, ids) == DestroyOrders(db, Elements(ids))
    decreases |ids|
  {
    if ids == [] {
      assert Elements(ids) == {};
      assert db.orders - {} == db.orders;
      assert WithoutOrders(db.fulfillmentOrders, {}) == db.fulfillmentOrders;
    } else {
      ElementsCons(ids);
      DestroyEachIsDestroyOrders(DestroyOrder(db, ids[0]), ids[1..]);
      DestroyOrderThenOrders(db, ids[0], Elements(ids[1..]));
    }
  }

  /** Destroying orders keeps the store's constraints. */
  lemma DestroyOrdersPreservesValid(db: Db, ids: set<string>)
    requires Valid(db)
    ensures Valid(DestroyOrders(db, ids))
  {
    var r := DestroyOrders(db, ids);
    forall k | k in r.fulfillmentOrders
      ensures FulfillmentOrderRowValid(r, k)
    {
      assert FulfillmentOrderRowValid(db, k);
    }
  }

  /** The orders that belong to a shop. */
  function OrdersOf(db: Db, shop: string): (r: set<string>)
    ensures forall k :: k in r <==> k in db.orders && db.orders[k].shop == shop
  {
    set k | k in db.orders && db.orders[k].shop == shop
  }

  /** `Shop#destroy`: its orders (each cascading to its fulfillment orders,
      whichever shop those name), its own fulfillment orders and its
      settings row go with it. Nothing else changes. */
  function DestroyShop(db: Db, shop: string): (r: Db)
    ensures r.shops.Keys == db.shops.Keys - {shop}
    ensures forall d :: d in r.shops ==> r.shops[d] == db.shops[d]
    ensures r.settings.Keys == db.settings.Keys - {shop}
    ensures forall d :: d in r.settings ==> r.settings[d] == db.settings[d]
    ensures forall k :: k in r.orders <==> k in db.orders && db.orders[k].shop != shop
    ensures forall k :: k in r.orders ==> r.orders[k] == db.orders[k]
    ensures forall k :: k in r.fulfillmentOrders <==>
      && k in db.fulfillmentOrders
      && db.fulfillmentOrders[k].shop != shop
      && (db.fulfillmentOrders[k].order.None? || db.fulfillmentOrders[k].order.value !in OrdersOf(db, shop))
    ensures forall k :: k in r.fulfillmentOrders ==> r.fulfillmentOrders[k] == db.fulfillmentOrders[k]
  {
    var afterOrders := DestroyOrders(db, OrdersOf(db, shop));
    var fos := map k | k in afterOrders.fulfillmentOrders && afterOrders.fulfillmentOrders[k].shop != shop
      :: afterOrders.fulfillmentOrders[k];
    Db(db.shops - {shop}, db.settings - {shop}, afterOrders.orders, fos)
  }

  /** Destroying a shop keeps the store's constraints. */
  lemma DestroyShopPreservesValid(db: Db, shop: string)
    requires Valid(db)
    ensures Valid(DestroyShop(db, shop))
  {
    var r := DestroyShop(db, shop);
    forall k | k in r.orders
      ensures r.orders[k].shop in r.shops
    {
    }
    forall k | k in r.fulfillmentOrders
      ensures FulfillmentOrderRowValid(r, k)
    {
      assert FulfillmentOrderRowValid(db, k);
      var fo := db.fulfillmentOrders[k];
      if fo.order.Some? {
        assert fo.order.value !in OrdersOf(db, shop);
      }
    }
  }
}

=== FILE: strings.dfy ===
/** String operations the Ruby and JavaScript code relies on, with the
    semantics of the respective standard library written out. */
module Strings {
  import opened Common

  // ---------------------------------------------------------------------
  // Decimal rendering (Ruby string interpolation of an Integer)
  // ---------------------------------------------------------------------

  function DigitChar(d: nat): (c: char)
    requires d < 10
    ensures '0' <= c <= '9'
  {
    (('0' as int) + d) as char
  }

  /** Decimal digits of `n`, most significant first, without leading zeros. */
  function NatToString(n: nat): (s: string)
    ensures |s| >= 1
    ensures forall i :: 0 <= i < |s| ==> '0' <= s[i] <= '9'
    ensures n < 10 <==> |s| == 1
    ensures s[0] != '0' || n == 0
    decreases n
  {
    if n < 10 then [DigitChar(n)] else NatToString(n / 10) + [DigitChar(n % 10)]
  }

  /** Distinct numbers print differently. */
  lemma {:induction false} NatToStringInjective(a: nat, b: nat)
    requires NatToString(a) == NatToString(b)
    ensures a == b
    decreases a
  {
    if a >= 10 && b >= 10 {
      var sa, sb := NatToString(a / 10), NatToString(b / 10);
      assert NatToString(a) == sa + [DigitChar(a % 10)];
      assert NatToString(b) == sb + [DigitChar(b % 10)];
      assert |sa| == |sb|;
      assert sa == NatToString(a)[..|sa|];
      assert sb == NatToString(b)[..|sb|];
      NatToStringInjective(a / 10, b / 10);
      assert DigitChar(a % 10) == NatToString(a)[|sa|] == NatToString(b)[|sb|] == DigitChar(b % 10);
    } else if a < 10 && b < 10 {
      assert DigitChar(a) == NatToString(a)[0] == NatToString(b)[0] == DigitChar(b);
    }
  }

  // ---------------------------------------------------------------------
  // Substring search
  // ---------------------------------------------------------------------

  /** `sub` occurs in `s` starting at index `i`. */
  predicate OccursAt(s: string, sub: string, i: int)
  {
    0 <= i && i + |sub| <= |s| && s[i..i + |sub|] == sub
  }

  predicate Contains(s: string, sub: string)
  {
    exists i | 0 <= i <= |s| :: OccursAt(s, sub, i)
  }

  /** Leftmost occurrence of `sub` in `s` at or after `from`. */
  function FindFrom(s: string, sub: string, from: nat): (r: Option<nat>)
    requires from <= |s|
    ensures r.Some? ==> from <= r.value && OccursAt(s, sub, r.value)
    ensures r.Some? ==> forall j :: from <= j < r.value ==> !OccursAt(s, sub, j)
    ensures r.None? ==> forall j :: from <= j ==> !OccursAt(s, sub, j)
    decreases |s| - from
  {
    if OccursAt(s, sub, from) then Some(from)
    else if from == |s| then None
    else FindFrom(s, sub, from + 1)
  }

  /** Leftmost occurrence of `sub` in `s`, if any. */
  function IndexOf(s: string, sub: string): (r: Option<nat>)
    ensures r.Some? <==> Contains(s, sub)
    ensures r.Some? ==> OccursAt(s, sub, r.value) && forall j :: 0 <= j < r.value ==> !OccursAt(s, sub, j)
  {
    FindFrom(s, sub, 0)
  }

  /** JavaScript's `String.prototype.replace` with a string pattern:
      only the first occurrence is replaced. */
  function ReplaceFirst(s: string, sub: string, rep: string): (r: string)
    ensures !Contains(s, sub) ==> r == s
    ensures Contains(s, sub) ==>
      var i := IndexOf(s, sub).value;
      r == s[..i] + rep + s[i + |sub|..]
  {
    match IndexOf(s, sub)
    case None => s
    case Some(i) => s[..i] + rep + s[i + |sub|..]
  }

  /** When nothing before the occurrence can start `sub`, the occurrence
      right after `p` is the one replaced, and `rest` is left untouched
      even if it contains `sub` again. */
  lemma ReplaceFirstAfter(p: string, sub: string, rep: string, rest: string)
    requires |sub| > 0
    requires forall k :: 0 <= k < |p| ==> p[k] != sub[0]
    ensures ReplaceFirst(p + sub + rest, sub, rep) == p + rep + rest
  {
    var s := p + sub + rest;
    assert s[|p|..|p| + |sub|] == sub;
    assert OccursAt(s, sub, |p|);
    var i := IndexOf(s, sub);
    assert i.Some?;
    forall j | 0 <= j < |p|
      ensures !OccursAt(s, sub, j)
    {
      assert s[j] == p[j];
      if j + |sub| <= |s| {
        assert s[j..j + |sub|][0] == s[j];
      }
    }
    assert i.value == |p|;
    assert s[..|p|] == p;
    assert s[|p| + |sub|..] == rest;
  }

  /** Ruby's `String#remove(sub)`: every non-overlapping occurrence, scanned
      left to right, is deleted; the result is not rescanned. */
  function RemoveAll(s: string, sub: string): (r: string)
    requires |sub| > 0
    ensures |r| <= |s|
    ensures !Contains(s, sub) ==> r == s
    decreases |s|
  {
    if |s| < |sub| then s
    else if sub <= s then
      assert OccursAt(s, sub, 0) by { assert s[0..|sub|] == sub; }
      RemoveAll(s[|sub|..], sub)
    else
      AbsentFromTail(s, sub);
      assert s == [s[0]] + s[1..];
      [s[0]] + RemoveAll(s[1..], sub)
  }

  /** What `s` lacks, its tail lacks too. */
  lemma AbsentFromTail(s: string, sub: string)
    requires |s| > 0
    ensures !Contains(s, sub) ==> !Contains(s[1..], sub)
  {
    if !Contains(s, sub) {
      forall j | 0 <= j <= |s[1..]|
        ensures !OccursAt(s[1..], sub, j)
      {
        assert !OccursAt(s, sub, j + 1);
        if j + |sub| <= |s[1..]| {
          assert s[1..][j..j + |sub|] == s[j + 1..j + 1 + |sub|];
        }
      }
    }
  }

  /** A leading occurrence is removed and the scan resumes right after it. */
  lemma RemoveAllLeading(sub: string, t: string)
    requires |sub| > 0
    ensures RemoveAll(sub + t, sub) == RemoveAll(t, sub)
  {
    assert (sub + t)[|sub|..] == t;
  }

  // ---------------------------------------------------------------------
  // Whitespace
  // ---------------------------------------------------------------------

  /** Characters Ruby's `[[:space:]]` matches; `blank?` is "only these". */
  predicate IsRubySpace(c: char)
  {
    c == ' ' || c == '\t' || c == '\n' || c == '\U{0B}' || c == '\U{0C}' || c == '\r'
    || c == '\U{85}' || c == '\U{A0}' || c == '\U{1680}'
    || ('\U{2000}' <= c <= '\U{200A}')
    || c == '\U{2028}' || c == '\U{2029}' || c == '\U{202F}' || c == '\U{205F}' || c == '\U{3000}'
  }

  /** ActiveSupport's `String#blank?` (also what `presence: true` checks). */
  predicate IsBlank(s: string)
  {
    forall i :: 0 <= i < |s| ==> IsRubySpace(s[i])
  }

  /** Characters JavaScript's `String.prototype.trim` strips: WhiteSpace
      and LineTerminator of ECMA-262. */
  predicate IsJsSpace(c: char)
  {
    c == ' ' || c == '\t' || c == '\n' || c == '\U{0B}' || c == '\U{0C}' || c == '\r'
    || c == '\U{A0}' || c == '\U{1680}'
    || ('\U{2000}' <= c <= '\U{200A}')
    || c == '\U{2028}' || c == '\U{2029}' || c == '\U{202F}' || c == '\U{205F}' || c == '\U{3000}'
    || c == '\U{FEFF}'
  }

  predicate AllJsSpace(s: string)
  {
    forall i :: 0 <= i < |s| ==> IsJsSpace(s[i])
  }

  /** Length of the whitespace run at the start of `s`. */
  function LeadingSpace(s: string): (n: nat)
    ensures n <= |s|
    ensures forall i :: 0 <= i < n ==> IsJsSpace(s[i])
    ensures n < |s| ==> !IsJsSpace(s[n])
    decreases |s|
  {
    if |s| > 0 && IsJsSpace(s[0]) then 1 + LeadingSpace(s[1..]) else 0
  }

  /** Length of the whitespace run at the end of `s`. */
  function TrailingSpace(s: string): (n: nat)
    ensures n <= |s|
    ensures forall i :: |s| - n <= i < |s| ==> IsJsSpace(s[i])
    ensures n < |s| ==> !IsJsSpace(s[|s| - n - 1])
    decreases |s|
  {
    if |s| > 0 && IsJsSpace(s[|s| - 1]) then 1 + TrailingSpace(s[..|s| - 1]) else 0
  }

  /** JavaScript's `String.prototype.trim`. */
  function Trim(s: string): (r: string)
    ensures |r| <= |s|
  {
    var a := LeadingSpace(s);
    var t := s[a..];
    t[..|t| - TrailingSpace(t)]
  }

  /** The trimmed string is a piece of `s` that neither begins nor ends
      with whitespace, and only whitespace surrounds it in `s`. */
  lemma TrimCharacterised(s: string)
    ensures Trim(s) == [] || (!IsJsSpace(Trim(s)[0]) && !IsJsSpace(Trim(s)[|Trim(s)| - 1]))
    ensures exists i :: (0 <= i <= |s| - |Trim(s)| && s[i..i + |Trim(s)|] == Trim(s)
                         && AllJsSpace(s[..i]) && AllJsSpace(s[i + |Trim(s)|..]))
  {
    var a := LeadingSpace(s);
    var t := s[a..];
    var b := TrailingSpace(t);
    var r := t[..|t| - b];
    assert r == Trim(s);
    assert s[a..a + |r|] == r;
    assert AllJsSpace(s[..a]);
    assert s[a + |r|..] == t[|t| - b..];
    assert r != [] ==> r[0] == t[0] && r[|r| - 1] == t[|t| - b - 1];
  }

  lemma AllSpaceConcat(a: string, b: string)
    requires AllJsSpace(a) && AllJsSpace(b)
    ensures AllJsSpace(a + b)
  {
    forall j | 0 <= j < |a + b|
      ensures IsJsSpace((a + b)[j])
    {
      if j >= |a| {
        assert (a + b)[j] == b[j - |a|];
      }
    }
  }

  /** A string trims to nothing exactly when it is all whitespace. */
  lemma TrimEmptyIffAllSpace(s: string)
    ensures Trim(s) == [] <==> AllJsSpace(s)
  {
    var r := Trim(s);
    TrimCharacterised(s);
    var i :| 0 <= i <= |s| - |r| && s[i..i + |r|] == r
      && AllJsSpace(s[..i]) && AllJsSpace(s[i + |r|..]);
    if r == [] {
      assert s == s[..i] + s[i + |r|..];
      AllSpaceConcat(s[..i], s[i + |r|..]);
    } else {
      assert r[0] == s[i];
      assert !IsJsSpace(s[i]);
    }
  }

  /** Trimming twice is trimming once. */
  lemma TrimIdempotent(s: string)
    ensures Trim(Trim(s)) == Trim(s)
  {
    var r := Trim(s);
    assert LeadingSpace(r) == 0;
    assert r[0..] == r;
    assert TrailingSpace(r) == 0;
    assert r[..|r| - 0] == r;
  }

  // ---------------------------------------------------------------------
  // ASCII case folding (the `i` flag of a Ruby regexp over ASCII text)
  // ---------------------------------------------------------------------

  function LowerAscii(c: char): (l: char)
    ensures !('A' <= l <= 'Z')
  {
    if 'A' <= c <= 'Z' then (c as int + 32) as char else c
  }

  /** `s` begins with `p`, letters compared without regard to case. */
  predicate StartsWithIgnoringCase(s: string, p: string)
  {
    |p| <= |s| && forall i :: 0 <= i < |p| ==> LowerAscii(s[i]) == LowerAscii(p[i])
  }
}

=== FILE: thank_you_editor.dfy ===
/** The thank-you page's address editor: the order id taken from the
    order confirmation, and what one submit shows for the backend's
    answer. The request itself is `AddressForm.UpdateRequest` for the
    rewritten order id. */
module ThankYouEditor {
  import opened Common
  import opened Strings
  import opened AddressForm
  import Api
  import Store
  import AddressEditable

  const ConfirmationMarker: string := "OrderIdentity"
  const OrderMarker: string := "Order"
  const GidPrefix: string := "gid://shopify/"

  /** `id.replace("OrderIdentity", "Order")`: only the first occurrence. */
  function RewriteOrderId(id: string): (r: string)
    ensures !Contains(id, ConfirmationMarker) ==> r == id
    ensures |r| <= |id|
  {
    ReplaceFirst(id, ConfirmationMarker, OrderMarker)
  }

  /** The confirmation's id `gid://shopify/OrderIdentity/<rest>` becomes the
      order's id `gid://shopify/Order/<rest>`; `rest` is left alone even if
      it contains the marker again. */
  lemma RewriteConfirmationId(rest: string)
    ensures RewriteOrderId(GidPrefix + ConfirmationMarker + rest) == GidPrefix + OrderMarker + rest
  {
    assert forall k :: 0 <= k < |GidPrefix| ==> GidPrefix[k] != ConfirmationMarker[0];
    ReplaceFirstAfter(GidPrefix, ConfirmationMarker, OrderMarker, rest);
  }

  /** What a submit leaves behind: requests sent, success and URL, the
      banner shown, and the loading flag. */
  datatype Submit = Submit(requests: nat, success: bool, statusPageUrl: Option<string>, banner: Option<Banner>, loading: bool)

  /** `response.ok`: a 2xx status. */
  predicate Ok(status: int)
  {
    200 <= status <= 299
  }

  /** `handleSubmit`, given the response (`None` when the fetch threw): one
      request; success only when the status is 2xx and the body says so;
      otherwise the body's first error, or the generic failure text when
      it has none; a throw or a body that is not JSON shows the network
      error. Loading is reset either way. */
  function HandleSubmit(response: Option<Api.Response>): (r: Submit)
    ensures r.requests == 1 && !r.loading
    ensures r.success <==> response.Some? && response.value.body.Some? && Ok(response.value.status) && response.value.body.value.success
    ensures r.success ==> r.banner.None? && r.statusPageUrl == response.value.body.value.statusPageUrl
    ensures r.banner == Some(NetworkError) <==> response.None? || response.value.body.None?
    ensures !r.success && response.Some? && response.value.body.Some? ==>
      r.banner == Some(match Api.FirstError(response.value.body.value) case Some(e) => Message(e) case None => UpdateFailed)
  {
    match response
    case None => Submit(1, false, None, Some(NetworkError), false)
    case Some(Response(status, _, body)) =>
      match body
      case None => Submit(1, false, None, Some(NetworkError), false)
      case Some(b) =>
        if Ok(status) && b.success then Submit(1, true, b.statusPageUrl, None, false)
        else
          Submit(1, false, None, Some(match Api.FirstError(b) case Some(e) => Message(e) case None => UpdateFailed), false)
  }

  /** Against the backend: a submit succeeds exactly when `create` answers
      200; a 401, 404 or 422 shows that response's first error; an
      exception in the backend shows the network error. */
  lemma ShowsBackendAnswer(db: Store.Db, req: Api.Request, decode: string -> Option<string>,
                           remote: Outcome<AddressEditable.UpdatePayload>)
    ensures var h := Api.Create(db, req, decode, remote);
      var r := HandleSubmit(Some(h.response));
      && (r.success <==> h.response.status == Api.StatusOk)
      && (h.response.status == Api.StatusInternalServerError ==> r.banner == Some(NetworkError))
      && (h.response.status == Api.StatusNotFound ==> r.banner == Some(Message(Api.RecordNotFoundMessage)))
  {
  }
}
